=== FILE: README.md ===
# AI video studio: the decision rules, in Dafny

The system turns a news item into a short portrait video. It fetches an article, has a
language model write a script of narrated segments, and generates narration, stock footage
or still images per segment. It then assembles those assets into clips and renders them.
Nearly all of it is glue around services: an RSS feed, article extraction, two text
providers, speech synthesis, stock-video search, image generation, MoviePy and PIL. This
project models the rules that sit between those services, each service being an input:

- which feed entry becomes the news item (`src/ingestion.py`);
- the prompt excerpt, the primary provider's three attempts, the secondary provider and the
  code-fence stripping (`src/synthesis.py`);
- the image and stock-search requests, the stock rendition choice and every failure sentinel
  (`src/assets.py`);
- per-segment clip assembly in `src/video.py`: skip rules, the visual source, the duration,
  resize-and-centre-crop framing, caption panel geometry and the RGB rule;
- the older composition notebook (`notebooks/assembly_script.py`);
- the command-line run (`manual_run.py`): `.env` key parsing, default news item, fallback
  script, visual fallback;
- the web front end's decisions (`app.py`): key guard, news item, visual fallback, progress
  bar, persisted script, report.

Modules follow the source files: `Text` holds the Python string operations the code relies on
(`in`, `replace`, `strip`, `split`, `lower`, `endswith`, `str(n)`), `Model` the script,
segment and news-item records, and `Assets`, `Synthesis`, `Ingestion`, `Video`, `Assembly`,
`ManualRun` and `App` one source file each. A service reply is a parameter:

- a function from request to reply (`gemini: (Prompt, nat) -> Reply`, `parse: string ->
  Option<Script>` for `json.loads`, `Web` for redirect resolution, page download and
  extraction);
- or an outcome datatype (`Effect`, `HttpReply`, `SearchReply`, `FetchOutcome`).

The assets directory is a map from segment index to the files found for that index. An
exception that the source catches becomes the function's sentinel (`False`, `None`, `0`).
One that it does not catch becomes an explicit outcome (`ApplyLines` returning None,
`NbStep.Crashed`, `NbRun.Aborted`). Geometry and durations are real numbers. API keys are
strings in which "" stands for every falsy value.

## Model

| member | source | states |
|---|---|---|
| Text.OccursIffSomePosition | src/ingestion.py:30 | the substring test `p in s`, as modelled by `Occurs`, holds exactly when p sits at some position of s |
| Text.RemoveAll | src/synthesis.py:89 | `replace(p, "")` never lengthens the text and leaves a text without p unchanged |
| Text.RemoveFenceLeavesNone | src/synthesis.py:89 | removing every ``` cannot splice a new ``` together from the pieces left around a removed one |
| Text.Strip | manual_run.py:18 | `strip()` returns a slice of its input with only whitespace outside it, and the slice neither starts nor ends with whitespace; whitespace is every ASCII character `str.isspace()` accepts, the separators \x1c to \x1f included |
| Text.SecondField | manual_run.py:18 | `split("=")[1]` fails exactly when the line has no '='; otherwise it is the text from the first '=' up to the next '=' or the end |
| Assets.GenerateAudio | src/assets.py:12-21 | True exactly when synthesis and saving completed; a raise gives False |
| Assets.AudioDuration | src/assets.py:23-28 | the MP3 length, or 0 when the file cannot be read |
| Assets.ImageUrl | src/assets.py:33 | the request holds the prompt verbatim after the endpoint and always asks for width=1080&height=1920 |
| Assets.ImageUrlRoundTrip | src/assets.py:33 | the prompt is recovered from its request, so distinct prompts give distinct requests |
| Assets.GenerateImage | src/assets.py:30-42 | True only for an HTTP 200 reply, and then exactly when the body was written |
| Assets.StockSearchUrl | src/assets.py:50 | the request goes to the stock-video search endpoint, holds the query verbatim right after it, and ends with the fixed options `&orientation=portrait&per_page=1&size=medium` |
| Assets.SelectRendition | src/assets.py:60-67 | the first MP4 rendition at most 1080 wide in list order, else the first rendition; always a member of the list, and absent only for an empty list (where `video_files[0]` raises) |
| Assets.SearchStockVideo | src/assets.py:44-81 | no request and False for an empty key; otherwise the portrait search; a raised request or a reply missing a key the code indexes gives False; a rendition is chosen exactly when the key is set and the reply's first video has renditions, it is the rule's choice, and the result is True exactly when its download completed |
| Assets.IsChoiceUnique | src/assets.py:60-67 | the rendition rule picks one rendition: two choices from the same list coincide |
| Assets.StockThenImage | src/assets.py:44-81 | with the search spelled out, an image is generated exactly when stock is not enabled, the key is empty, the reply lists no rendition, or the chosen rendition's download did not complete |
| Assets.ObtainVisual | app.py:185-193 | an image is generated exactly when the stock step was not tried or did not succeed |
| Synthesis.Excerpt | src/synthesis.py:68 | `content[:2000]`: a prefix of the article of length min(len, 2000) |
| Synthesis.PromptFor | src/synthesis.py:28-30 | the prompt carries the title and at most the first 2000 characters of the content |
| Synthesis.StripFences | src/synthesis.py:89 | after stripping, the reply holds neither ``` nor ```json, is no longer than before, and is unchanged if it had no fence |
| Synthesis.StripFencesIdempotent | src/synthesis.py:89 | stripping twice is stripping once |
| Synthesis.StripFencesKeepsBody | src/synthesis.py:89 | a reply ```json body ``` whose body has no backtick comes out as exactly the body |
| Text.RemoveAllSkipsPlain | src/synthesis.py:89 | text without a backtick passes through `replace` of a backtick pattern unchanged and in place |
| Synthesis.GeminiAttemptIgnoresFences | src/synthesis.py:86-91 | a primary reply and its fence-stripped form parse to the same result |
| Synthesis.GeminiLoop | src/synthesis.py:85-94 | at most three attempts; the first one that parses is returned at once, and no result means all three failed |
| Synthesis.GroqScript | src/synthesis.py:47-55 | None when the request raises, else the parse of the reply content, with no fence stripping |
| Synthesis.GenerateScript | src/synthesis.py:57-106 | primary attempted iff its key is truthy, at most 3 times; first success returned with no secondary call; secondary called iff the primary yields nothing and its key is truthy; its result kept only when truthy; None when the primary yields nothing and the secondary is not called |
| Synthesis.ArticleTailIgnored | src/synthesis.py:65-68 | two articles with the same title and the same first 2000 characters produce the same run |
| Ingestion.ResolveUrl | src/ingestion.py:7-13 | the final URL after redirects, or the link unchanged when resolution raises |
| Ingestion.Candidate | src/ingestion.py:27-41 | an entry is accepted exactly when its resolved URL is not a Google loopback, the page downloads non-empty and the extracted text is longer than 200 characters; the item then holds the entry's title, the resolved link and that extracted text |
| Ingestion.FetchNewsTopic | src/ingestion.py:15-43 | None for an empty feed; otherwise the first acceptable entry among the first three in feed order, and None iff none of them is acceptable |
| Ingestion.UnresolvedFeedLinkIsKept | src/ingestion.py:29-31 | a feed link .../rss/articles/<id> whose resolution raises contains "articles" and so is not skipped as a loopback |
| Video.LayoutCaption | src/video.py:42-62 | for n wrapped lines the panel spans x 35..685 and y 960..1000+50n; line k starts at (60, 970+50k), 50 px below the previous one, inside the panel |
| Video.PanelFitsFrame | src/video.py:48-50 | the panel stays inside the 1280-pixel frame exactly when the caption wraps to at most 5 lines |
| Video.FlattensToRgbBySuffix | src/video.py:69-70 | the image is flattened to RGB exactly when the path's last 4 or 5 characters, lower-cased, are ".jpg" or ".jpeg" |
| Video.OverlayKeepsAlpha | src/video.py:122-123 | the per-segment overlay `{i}_overlay.png` keeps its alpha channel |
| Video.TitledStillIsFlattened | src/video.py:87 | the titled still `{i}_visual_titled.jpg` is saved as RGB |
| Video.CreateImageWithText | src/video.py:17-77 | an image is saved exactly when rendering goes through (any exception gives False); its panel spans x 35 to 685 and y 960 to 1000 + 50 per wrapped line, line k is drawn from (60, 970 + 50k) inside the panel, and its colour mode follows the extension rule |
| Video.ResizeToHeight | src/video.py:110-111 | resizing to a height keeps the aspect ratio |
| Video.CentreCrop | src/video.py:113 | the crop window has exactly the target width and is centred on the frame (x1 + x2 = w) |
| Video.FitToHeight | src/video.py:110-113 | after forcing the height, a frame wider than the target is cropped to exactly the target width, centred and within the frame; a narrower one is left uncropped |
| Video.FitFootage | src/video.py:110-113 | stock footage ends 1280 high and at most 720 wide, and its crop starts at x1 >= 0 |
| Video.SafetyPass | src/video.py:145-148 | the final pass yields 720 by 1280 for a frame at least as wide as 9:16, which is exactly when the resized width is at least 720; it crops exactly when the resized width differs from 720, and does nothing to a frame already at the target |
| Video.ScaledWidthAtLeastTarget | src/video.py:145-147 | after scaling to height 1280 the width is at least 720 exactly when the frame is at least as wide as 9:16 |
| Video.SafetyCropWithinFrame | src/video.py:147-148 | the safety crop lies inside the frame exactly when the resized width is at least 720 |
| Video.AssembleSegment | src/video.py:84-150 | no clip without audio or a visual; duration is audio + 0.5; a non-empty MP4 wins over the still, is looped iff shorter and cut to [0, duration]; a still is titled iff the caption was burned in; a footage clip, a titled still and a raw still at least as wide as 9:16 end 720 by 1280; with audio and a visual the segment becomes a clip unless a file it opens fails to load, and the still is not opened when there is footage |
| Video.MakeVideo | src/video.py:79-169 | clips come in strictly increasing segment order, each is that segment's assembly, every assemblable segment is present, and the result is True iff some clip exists and rendering went through |
| Assembly.CreateSegmentClip | notebooks/assembly_script.py:24-68 | skipped iff the still is missing or empty (missing audio does not skip); 5 s unless audio loads; audio attached iff it loads; caption iff the text clip renders; the still is scaled to 1920 high keeping its aspect ratio, and cropped to a centred 1080-wide window exactly when it came out wider |
| Assembly.AssembleVideo | notebooks/assembly_script.py:70-95 | nothing for a missing file or an empty list; only the first script is used; clips in increasing index order, exactly the segments that build; a still that fails to load aborts the run at the first such segment, so an assembled run had every segment load; written iff a clip exists and concatenating and writing went through |
| ManualRun.KeyText | manual_run.py:41 | the key handed to synthesis is usable exactly when the variable is set and non-empty |
| ManualRun.LineKey | manual_run.py:16-22 | a line sets GEMINI if it mentions GEMINI_API_KEY, else PEXELS if it mentions PEXELS_API_KEY, else GROQ if it mentions GROQ_API_KEY |
| ManualRun.LineValue | manual_run.py:18 | there is no value exactly when the line has no '='; otherwise the value is the slice of the line between the first '=' and the next '=' or the end, less only the whitespace at both ends, so it holds no '=' and no surrounding whitespace |
| ManualRun.ApplyLines | manual_run.py:16-22 | after the loop each key holds its environment value or the value of some line naming it |
| ManualRun.ApplyLinesRaisesIff | manual_run.py:16-22 | reading `.env` raises exactly when some line names a key but has no '=' |
| ManualRun.UnnamedKeyKept | manual_run.py:16-22 | a key no line names keeps its environment value |
| ManualRun.LastLineWins | manual_run.py:16-22 | the last line naming a key decides its value, over the environment and earlier lines |
| ManualRun.LoadKeys | manual_run.py:8-22 | `.env` is read only when it exists and some key is missing or empty; then its lines override the environment in order |
| ManualRun.ChooseNews | manual_run.py:28-37 | the built-in item is replaced only by an item the fetch returned; a raise or None keeps it |
| ManualRun.RunNews | manual_run.py:28-37 | with the fetch spelled out, the run uses the built-in item exactly when the fetch raised or none of the top three entries yields an article; otherwise the item is titled as one of those entries and holds more than 200 characters |
| ManualRun.ChooseScript | manual_run.py:42-52 | the fixed four-segment script is used exactly when synthesis gives nothing truthy, so the run always has a truthy script |
| ManualRun.RunScript | manual_run.py:28-53 | the script the run renders is always truthy |
| ManualRun.NoTextKeysUseFallback | manual_run.py:41-53 | with neither text key the run renders the fallback script |
| ManualRun.SegmentVisual | manual_run.py:68-75 | stock video tried iff the Pexels key is truthy; an image generated iff that did not succeed |
| ManualRun.SegmentVisualRun | manual_run.py:68-75 | with the search spelled out, an image is generated exactly when the Pexels key is falsy or the search found no rendition whose download completed |
| App.ApiKeyDefault | app.py:102-105 | a configured secret wins over the environment variable, which wins over "" |
| App.GuardRefusesOnlyHopelessRuns | app.py:150-151 | the key guard refuses only runs in which synthesis would call no provider and return nothing |
| App.NewsFor | app.py:158-162 | the session's fetched item in trending mode when there is one, else a title/"A video about " + topic item |
| App.SegmentVisual | app.py:185-193 | stock video tried iff the checkbox is on and a Pexels key is set; an image iff no video was obtained |
| App.SegmentVisualRun | app.py:185-193 | with the search spelled out, an image is generated exactly when the checkbox is off, the Pexels key is empty, or the search found no rendition whose download completed |
| App.Progress | app.py:196 | after segment i of n the bar shows 30 + floor(40(i+1)/n), between 30 and 70, and 70 after the last segment |
| App.ShareBounds | app.py:196 | the per-segment share never exceeds 40 and reaches 40 at the last segment |
| App.ProgressMonotone | app.py:196 | the bar never moves back between segments |
| App.ProgressTrace | app.py:153-203 | a rendered run shows 0, 10 and 30, then the bar value of each of the n segments in order, then 100: n + 4 values within 0..100 |
| App.ProgressTraceMonotone | app.py:153-203 | the values shown over a run never decrease |
| App.Persist | app.py:172-173 | the script file is a one-element list whose element has the script's segments and mood |
| App.RenderPersisted | app.py:172-173 | the composition notebook reading that file finds a script, and its clips are exactly the segments of the written script whose stills build |
| App.BulletLines | app.py:217-218 | the script section has one line per segment, and line k is segment k's bullet "- text (Visual: prompt)" |
| Text.ConcatAppend | app.py:217-218 | appending lines one after another: the joined text of two runs of lines is the first run's followed by the second's |
| Text.ConcatSplit | app.py:217-218 | the joined lines are the lines before k, line k, then the rest: every line appears once, in order |
| App.ReportHeader | app.py:209-215 | the heading block is, in this order, the report title, the topic line, the segment-count line, the mood line ("N/A" without a mood) and the script heading |
| App.Report | app.py:209-218 | the report is the heading block followed straight away by the joined bullet lines of the segments |
| App.ReportInScriptOrder | app.py:217-218 | past the heading, the report is the bullets of the segments before k, segment k's bullet, then the bullets after it: every bullet once, in script order |
| Text.NatToString | app.py:212 | `str(n)`: a non-empty string of decimal digits without a leading zero |
| Text.NatToStringRoundTrip | app.py:212 | the digits read back as n |
| App.ReportHoldsEverySegment | app.py:209-218 | the report contains the bullet of every segment |

## Left out

- Rendering: MoviePy and PIL pixel work, alpha compositing, fades, `to_RGB`, codecs, frame
  rate, threads and the `ANTIALIAS` patch. A resize is only "scale the width by the same
  factor as the height".
- Network and SDK calls: feedparser, trafilatura, requests, edge_tts, the Gemini SDK and the
  Groq HTTP API. Each is an input: a reply function or an outcome.
- The RSS URL built from the topic and the feed parsing. The feed's entries are an input of
  `Ingestion.FetchNewsTopic`.
- File I/O. The assets directory is a map from index to the files found for it, and the
  script file is its decoded contents.
- `time.sleep` between attempts, the asyncio loop around speech synthesis, and every `print`.
- `textwrap` internals: the wrapper is an input, and only its line count feeds the layout.
- The fixed instruction text of both prompts. A prompt is modelled by its title and excerpt.
- Streamlit widgets, CSS, `st.json`, the download button and the video player in app.py.
  `st.stop()` after a failed synthesis ends the run and is not modelled further.
- test_groq.py and test_groq_isolated.py: network smoke tests, not part of this model.
- Validation of the script schema (5 to 7 segments, non-empty fields). The code never checks it.
- Model.Segment: every segment carries both `text` and `image_prompt`. A segment missing one
  raises KeyError in the source: caught inside `make_video`, uncaught in the asset loops.
- Model.Script: a reply that parses to a JSON value other than an object is not modelled.
- Text.Strip: whitespace is the ASCII set of `str.isspace()` (space, \t, \n, \v, \f, \r and
  \x1c to \x1f). Python's `strip()` also removes non-ASCII Unicode whitespace.
- Text.Lower: only ASCII letters are lower-cased.
- App.Progress: exact integer floor of 40(i+1)/n, where the source evaluates
  `int((i+1)/n * 40)` in floating point. Where the exact quotient is a whole number, rounding
  could make the source show one less.
- Video.SafetyCropWithinFrame: for a frame narrower than 720 after resizing, the crop window
  starts at a negative x1. What MoviePy then does with such a window is library behaviour and
  is not modelled.
- Video.SafetyPass: for a frame narrower than 9:16 the contract says nothing about the
  resulting frame. MoviePy slices the pixel array with the negative x1, which counts from the
  right edge, so the result is not 720 wide; that library behaviour is not modelled.
- Assets.SearchStockVideo: a reply missing a key the code indexes is one abstract case,
  `SearchMalformed`; the model does not derive from the JSON which missing keys are reached
  before the rendition loop stops.
- Video.AssembleSegment: the resulting frame of an untitled still narrower than 9:16 is left
  open, for the reason given for Video.SafetyPass.
- Video.AssembleSegment: a failed overlay render leaves no `{i}_overlay.png`, and loading it
  raises, so the segment is skipped. A stale overlay left by an earlier run would be used
  instead; that is not modelled.
- Assembly.CreateSegmentClip: the notebook resizes every still to height 1920
  unconditionally. The model resizes only when the height differs, which gives the same frame.
- Floating-point evaluation of durations and crop offsets: real numbers are used instead.

=== FILE: app.dfy ===
/** The decisions of the Streamlit front end (app.py) around its generate button: the key
    guard, the news item, the visual fallback, the progress bar, the persisted script and the
    Markdown report. Widgets and layout are not modelled. */
module App {
  import opened Common
  import opened Text
  import opened Model
  import Assets
  import Synthesis
  import Assembly

  /** `get_api_key`: the Streamlit secret when one is configured, else the environment
      variable, else "". */
  function ApiKeyDefault(secret: Option<string>, env: Option<string>): (key: string)
    ensures secret.Some? ==> key == secret.value
    ensures secret.None? && env.Some? ==> key == env.value
    ensures secret.None? && env.None? ==> key == ""
  {
    match secret
    case Some(s) => s
    case None => env.GetOr("")
  }

  /** Generation starts only when a Gemini or a Groq key is filled in. */
  predicate CanGenerate(gemini: string, groq: string)
  {
    Present(gemini) || Present(groq)
  }

  /** The guard only refuses runs whose synthesis could not succeed: without both keys no
      provider is called and no script comes back. */
  lemma GuardRefusesOnlyHopelessRuns(news: NewsItem, gemini: string, groq: string,
                                     primary: (Synthesis.Prompt, nat) -> Synthesis.Reply,
                                     secondary: Synthesis.Prompt -> Synthesis.Reply,
                                     parse: string -> Option<Script>)
    requires !CanGenerate(gemini, groq)
    ensures var run := Synthesis.GenerateScript(news, gemini, groq, primary, secondary, parse);
            run.result.None? && run.primaryAttempts == 0 && !run.secondaryCalled
  {
  }

  datatype Mode = CustomTopic | TrendingNews

  /** The item scripted: the fetched news kept in the session when in trending mode and one
      was fetched, otherwise one made from the topic (the topic field is only shown, and so
      only filled in, in custom mode). */
  function NewsFor(mode: Mode, session: Option<NewsItem>, topicInput: string): (n: NewsItem)
    ensures mode == TrendingNews && session.Some? ==> n == session.value
    ensures mode == CustomTopic ==> n == NewsItem(topicInput, None, "A video about " + topicInput)
    ensures mode == TrendingNews && session.None? ==> n == NewsItem("", None, "A video about ")
  {
    if mode == TrendingNews && session.Some? then session.value
    else
      var topic := if mode == CustomTopic then topicInput else "";
      NewsItem(topic, None, "A video about " + topic)
  }

  /** Each segment's visual: stock video when the checkbox is on and a Pexels key is set,
      an image exactly when no stock video was obtained. */
  function SegmentVisual(useStock: bool, pexels: string, stockOk: bool): (v: Assets.VisualSteps)
    ensures v.stockTried <==> useStock && Present(pexels)
    ensures v.imageTried <==> !(useStock && Present(pexels) && stockOk)
  {
    Assets.ObtainVisual(useStock && Present(pexels), stockOk)
  }

  /** The visual step of one segment with the stock search run on the segment's image
      prompt: an image is generated exactly when the checkbox is off, no Pexels key is set,
      or the search found no rendition whose download completed. */
  method SegmentVisualRun(useStock: bool, pexels: string, prompt: string, reply: Assets.SearchReply,
                          download: string -> Assets.Effect)
    returns (steps: Assets.VisualSteps)
    ensures steps.stockTried <==> useStock && Present(pexels)
    ensures steps.imageTried <==>
              !(useStock && Present(pexels) && Assets.ListsRenditions(reply)
                && exists v :: Assets.IsChoice(reply.videos.value[0].files, v) && download(v.link) == Assets.Completed)
    ensures steps == SegmentVisual(useStock, pexels, steps.stockOk)
  {
    var search;
    steps, search := Assets.StockThenImage(useStock && Present(pexels), prompt, pexels, reply, download);
  }

  /** The progress bar after segment i of n: `30 + int((i + 1) / n * 40)`, read with exact
      arithmetic. */
  function Progress(i: nat, n: nat): (p: int)
    requires i < n
    ensures 30 <= p <= 70
    ensures i == n - 1 ==> p == 70
  {
    ShareBounds(i, n);
    30 + (40 * (i + 1)) / n
  }

  /** The share of the 40 points reached after segment i of n: at most all of them, and all
      of them after the last segment. */
  lemma ShareBounds(i: nat, n: nat)
    requires i < n
    ensures (40 * (i + 1)) / n <= 40
    ensures i == n - 1 ==> (40 * (i + 1)) / n == 40
  {
  }

  /** A strict inequality between multiples of a positive number holds between the factors. */
  lemma MulLtCancel(q: nat, c: nat, n: nat)
    requires n > 0 && n * q < n * c
    ensures q < c
  {
  }

  /** Floor division by a positive number is monotone. */
  lemma DivMonotone(a: nat, b: nat, n: nat)
    requires n > 0 && a <= b
    ensures a / n <= b / n
  {
    var qa, qb := a / n, b / n;
    assert n * qa + a % n == a;
    assert n * qb + b % n == b;
    assert n * qa < n * qb + n;
    assert n * qb + n == n * (qb + 1);
    MulLtCancel(qa, qb + 1, n);
  }

  /** The bar never moves backwards while assets are generated. */
  lemma ProgressMonotone(i: nat, j: nat, n: nat)
    requires i <= j < n
    ensures Progress(i, n) <= Progress(j, n)
  {
    DivMonotone(40 * (i + 1), 40 * (j + 1), n);
  }

  /** Every value the bar shows in a run with n segments that renders: 0, 10 after the
      content, 30 after the script, one value per segment, 100 after rendering. */
  function ProgressTrace(n: nat): (t: seq<int>)
    ensures |t| == n + 4
    ensures t[..3] == [0, 10, 30] && t[n + 3] == 100
    ensures forall i :: 0 <= i < n ==> t[3 + i] == Progress(i, n)
    ensures forall k :: 0 <= k < |t| ==> 0 <= t[k] <= 100
  {
    [0, 10, 30] + seq(n, i requires 0 <= i < n => Progress(i, n)) + [100]
  }

  /** The bar's values rise monotonically over a whole run. */
  lemma ProgressTraceMonotone(n: nat)
    ensures forall a, b :: 0 <= a <= b < |ProgressTrace(n)| ==> ProgressTrace(n)[a] <= ProgressTrace(n)[b]
  {
    var t := ProgressTrace(n);
    forall a, b | 0 <= a <= b < |t|
      ensures t[a] <= t[b]
    {
      if 3 <= a && b < n + 3 {
        ProgressMonotone(a - 3, b - 3, n);
      }
    }
  }

  /** `json.dump([script])`: the file holds a one-element list, whose first element the
      composition notebook reads back. */
  function Persist(script: Script): (file: seq<Script>)
    ensures |file| == 1 && file[0].Segments() == script.Segments() && file[0].Mood() == script.Mood()
  {
    [script]
  }

  /** The script the front end writes is the one the composition notebook renders: the
      notebook finds the file and a script in it, and its clips are exactly the segments of
      that script whose stills build, in order. */
  method RenderPersisted(script: Script, dir: map<nat, Assembly.NbFiles>, rendered: bool)
    returns (run: Assembly.NbRun)
    ensures !run.NoScriptFile? && !run.EmptyScriptList?
    ensures run.Aborted? ==> run.at < |script.Segments()|
    ensures run.Assembled? ==>
              && (forall k :: 0 <= k < |run.clips| ==> run.clips[k].index < |script.Segments()|)
              && (forall j :: 0 <= j < |script.Segments()| ==>
                    (Assembly.CreateSegmentClip(j, Assembly.NbFilesAt(dir, j)).Built? <==>
                     exists k :: 0 <= k < |run.clips| && run.clips[k].index == j))
  {
    run := Assembly.AssembleVideo(Some(Persist(script)), dir, rendered);
  }

  /** One report line per segment. */
  function Bullet(seg: Segment): string
  {
    "- " + seg.text + " (Visual: " + seg.imagePrompt + ")\n"
  }

  /** The report's script section, line by line: line k is segment k's bullet. */
  function BulletLines(segments: seq<Segment>): (lines: seq<string>)
    ensures |lines| == |segments|
    ensures forall k :: 0 <= k < |segments| ==> lines[k] == Bullet(segments[k])
  {
    seq(|segments|, k requires 0 <= k < |segments| => Bullet(segments[k]))
  }

  const ReportTitle := "# Video Generation Report\n"
  const ScriptHeading := "\n## Script\n"

  function TopicLine(title: string): string { "**Topic**: " + title + "\n" }
  function SegmentsLine(n: nat): string { "**Segments**: " + NatToString(n) + "\n" }
  function MoodLine(mood: string): string { "**Music Mood**: " + mood + "\n" }

  /** The report's heading block: the title, then the topic, the segment count in decimal and
      the music mood ("N/A" when the script has none), each on its own line, then the
      script heading. */
  function ReportHeader(title: string, script: Script): (h: string)
    ensures h == ReportTitle + TopicLine(title) + SegmentsLine(|script.Segments()|) + MoodLine(script.Mood()) + ScriptHeading
    ensures |ReportTitle| <= |h| && h[..|ReportTitle|] == ReportTitle
    ensures Occurs(TopicLine(title), h)
    ensures Occurs(SegmentsLine(|script.Segments()|), h)
    ensures Occurs(MoodLine(script.Mood()), h)
    ensures EndsWith(h, ScriptHeading)
  {
    var topic, count, mood := TopicLine(title), SegmentsLine(|script.Segments()|), MoodLine(script.Mood());
    var h := ReportTitle + topic + count + mood + ScriptHeading;
    OccursBetween(ReportTitle, topic, count + mood + ScriptHeading, h);
    OccursBetween(ReportTitle + topic, count, mood + ScriptHeading, h);
    OccursBetween(ReportTitle + topic + count, mood, ScriptHeading, h);
    assert h == (ReportTitle + topic + count + mood) + ScriptHeading;
    h
  }

  /** The Markdown report written after a successful render: the heading block, then the
      segments' lines straight after it. */
  function Report(news: NewsItem, script: Script): (r: string)
    ensures var h := ReportHeader(news.title, script);
            |h| <= |r| && r[..|h|] == h && r[|h|..] == Concat(BulletLines(script.Segments()))
  {
    var h := ReportHeader(news.title, script);
    var body := Concat(BulletLines(script.Segments()));
    assert (h + body)[..|h|] == h;
    assert (h + body)[|h|..] == body;
    h + body
  }

  /** Past the heading block, the report is the bullets of the segments before k, segment
      k's bullet, then the bullets of the segments after it: each bullet once, in script
      order. */
  lemma ReportInScriptOrder(news: NewsItem, script: Script, k: nat)
    requires k < |script.Segments()|
    ensures var segs := script.Segments();
            Report(news, script) ==
              ReportHeader(news.title, script)
              + Concat(BulletLines(segs[..k])) + Bullet(segs[k]) + Concat(BulletLines(segs[k + 1..]))
  {
    var segs := script.Segments();
    var lines := BulletLines(segs);
    ConcatSplit(lines, k);
    BulletLinesSlices(segs, k);
  }

  /** The bullets of a slice of segments are that slice of the bullets. */
  lemma BulletLinesSlices(segs: seq<Segment>, k: nat)
    requires k < |segs|
    ensures BulletLines(segs)[..k] == BulletLines(segs[..k])
    ensures BulletLines(segs)[k] == Bullet(segs[k])
    ensures BulletLines(segs)[k + 1..] == BulletLines(segs[k + 1..])
  {
  }

  /** The report holds every segment's bullet. */
  lemma ReportHoldsEverySegment(news: NewsItem, script: Script, k: nat)
    requires k < |script.Segments()|
    ensures Occurs(Bullet(script.Segments()[k]), Report(news, script))
  {
    JoinedPartOccurs(ReportHeader(news.title, script), BulletLines(script.Segments()), k);
  }
}

=== FILE: assembly.dfy ===
/** The composition notebook (notebooks/assembly_script.py), the older assembly path: stills
    only, 1080 by 1920 output, a five-second default when narration is missing, and no
    exception handling around loading a still or rendering. */
module Assembly {
  import opened Common
  import opened Model
  import Video

  /** The notebook's output frame. */
  const OutW := 1080
  const OutH := 1920

  /** Seconds a segment lasts when its narration is missing or cannot be loaded. */
  const DefaultDuration := 5.0

  /** `{i}_audio.mp3`: its size in bytes and, when it loads, its duration. */
  datatype NbAudio = NbAudio(size: nat, duration: Option<real>)

  /** `{i}_visual.jpg`: its size in bytes and, when it loads, its frame. */
  datatype NbImage = NbImage(size: nat, frame: Option<Video.Frame>)

  /** What the notebook finds for one index, and whether the caption text clip can be
      rendered (it needs ImageMagick). */
  datatype NbFiles = NbFiles(audio: Option<NbAudio>, jpg: Option<NbImage>, textClipOk: bool)

  function NbFilesAt(dir: map<nat, NbFiles>, i: nat): NbFiles
  {
    if i in dir then dir[i] else NbFiles(None, None, false)
  }

  /** `has_visual`: the still exists and is not empty. */
  predicate HasVisual(files: NbFiles)
  {
    files.jpg.Some? && files.jpg.value.size > 0
  }

  /** `has_audio` after loading: the narration exists, is not empty and loads. */
  predicate AudioLoads(files: NbFiles)
  {
    files.audio.Some? && files.audio.value.size > 0 && files.audio.value.duration.Some?
  }

  /** A clip of the notebook: its duration, whether narration is attached, whether the
      caption was composited, and its framing. */
  datatype NbClip = NbClip(index: nat, duration: real, withAudio: bool, captioned: bool, framing: Video.Framing)

  /** One call of `create_segment_clip`: skipped (None in the source), an exception that is
      not caught and ends the script, or a clip. */
  datatype NbStep = Skipped | Crashed | Built(clip: NbClip)

  /** `create_segment_clip(index, segment)`. */
  function CreateSegmentClip(i: nat, files: NbFiles): (r: NbStep)
    ensures r.Skipped? <==> !HasVisual(files)
    ensures r.Crashed? <==> HasVisual(files) && files.jpg.value.frame.None?
    ensures r.Built? ==> r.clip.index == i
    ensures r.Built? ==> r.clip.duration == if AudioLoads(files) then files.audio.value.duration.value else DefaultDuration
    ensures r.Built? ==> (r.clip.withAudio <==> AudioLoads(files))
    ensures r.Built? ==> (r.clip.captioned <==> files.textClipOk)
    // the still is scaled to 1920 high keeping its aspect ratio, then cropped to a centred
    // 1080-wide window exactly when it came out wider
    ensures r.Built? ==>
              && r.clip.framing.resized.h == OutH as real
              && r.clip.framing.resized.w * files.jpg.value.frame.value.h == files.jpg.value.frame.value.w * OutH as real
    ensures r.Built? ==> (r.clip.framing.crop.Some? <==> r.clip.framing.resized.w > OutW as real)
    ensures r.Built? ==> r.clip.framing.out.h == OutH as real && r.clip.framing.out.w <= OutW as real
    ensures r.Built? && r.clip.framing.crop.Some? ==>
              && r.clip.framing.crop.value.x2 - r.clip.framing.crop.value.x1 == OutW as real
              && r.clip.framing.crop.value.x1 + r.clip.framing.crop.value.x2 == r.clip.framing.resized.w
              && r.clip.framing.out.w == OutW as real
    ensures r.Built? && r.clip.framing.crop.None? ==> r.clip.framing.out == r.clip.framing.resized
  {
    if !HasVisual(files) then Skipped
    else
      var duration := if AudioLoads(files) then files.audio.value.duration.value else DefaultDuration;
      match files.jpg.value.frame
      case None => Crashed
      case Some(f) =>
        Built(NbClip(i, duration, AudioLoads(files), files.textClipOk, Video.FitToHeight(f, OutW as real, OutH as real)))
  }

  /** How `assemble_video` ended. */
  datatype NbRun =
    | NoScriptFile                                // data/script.json is missing
    | EmptyScriptList                             // the file holds an empty list
    | Aborted(at: nat)                            // segment `at` raised while loading its still
    | Assembled(clips: seq<NbClip>, written: bool) // clips built; written says whether the video was

  /** `assemble_video()`: the script file's contents (None when it does not exist), the assets
      found per index, and whether concatenating and writing the clips goes through. Only the
      first script of the file is used. Neither step is guarded, so a run with clips that is
      not written ended in an uncaught exception. */
  method AssembleVideo(scriptFile: Option<seq<Script>>, dir: map<nat, NbFiles>, rendered: bool) returns (run: NbRun)
    ensures scriptFile.None? <==> run.NoScriptFile?
    ensures scriptFile == Some([]) <==> run.EmptyScriptList?
    ensures run.Aborted? ==>
              && scriptFile.Some? && |scriptFile.value| > 0
              && run.at < |scriptFile.value[0].Segments()|
              && CreateSegmentClip(run.at, NbFilesAt(dir, run.at)).Crashed?
              && forall j :: 0 <= j < run.at ==> !CreateSegmentClip(j, NbFilesAt(dir, j)).Crashed?
    ensures run.Assembled? ==>
              && scriptFile.Some? && |scriptFile.value| > 0
              && (run.written <==> |run.clips| > 0 && rendered)
              // every segment loaded: a still that fails to load ends the run
              && (forall j :: 0 <= j < |scriptFile.value[0].Segments()| ==> !CreateSegmentClip(j, NbFilesAt(dir, j)).Crashed?)
              && (forall j, k :: 0 <= j < k < |run.clips| ==> run.clips[j].index < run.clips[k].index)
              && (forall k :: 0 <= k < |run.clips| ==>
                    run.clips[k].index < |scriptFile.value[0].Segments()|
                    && CreateSegmentClip(run.clips[k].index, NbFilesAt(dir, run.clips[k].index)) == Built(run.clips[k]))
              && (forall j :: 0 <= j < |scriptFile.value[0].Segments()| ==>
                    (CreateSegmentClip(j, NbFilesAt(dir, j)).Built? <==> exists k :: 0 <= k < |run.clips| && run.clips[k].index == j))
  {
    if scriptFile.None? {
      return NoScriptFile;
    }
    if |scriptFile.value| == 0 {
      return EmptyScriptList;
    }
    var segments := scriptFile.value[0].Segments();
    var clips: seq<NbClip> := [];
    var i := 0;
    while i < |segments|
      invariant 0 <= i <= |segments|
      invariant forall j :: 0 <= j < i ==> !CreateSegmentClip(j, NbFilesAt(dir, j)).Crashed?
      invariant forall k :: 0 <= k < |clips| ==> clips[k].index < i
      invariant forall j, k :: 0 <= j < k < |clips| ==> clips[j].index < clips[k].index
      invariant forall k :: 0 <= k < |clips| ==>
                  CreateSegmentClip(clips[k].index, NbFilesAt(dir, clips[k].index)) == Built(clips[k])
      invariant forall j :: 0 <= j < i ==>
                  (CreateSegmentClip(j, NbFilesAt(dir, j)).Built? <==> exists k :: 0 <= k < |clips| && clips[k].index == j)
    {
      var step := CreateSegmentClip(i, NbFilesAt(dir, i));
      match step {
        case Crashed =>
          return Aborted(i);
        case Skipped =>
        case Built(c) =>
          ghost var before := clips;
          clips := clips + [c];
          assert forall k :: 0 <= k < |before| ==> clips[k] == before[k];
          assert clips[|clips| - 1].index == i;
      }
      i := i + 1;
    }
    run := Assembled(clips, |clips| > 0 && rendered);
  }
}

=== FILE: assets.dfy ===
/** The asset providers of src/assets.py: speech synthesis, image generation and stock-video
    search. Every network reply is an input; what is modelled is which request is made, which
    rendition is chosen and which sentinel comes back. */
module Assets {
  import opened Common
  import opened Text
  import opened Model

  /** How a call that writes an artifact ended: it completed, or it raised. */
  datatype Effect = Completed | Raised

  /** `generate_audio`: True exactly when speech synthesis and saving completed; every
      exception becomes False. */
  function GenerateAudio(tts: Effect): (ok: bool)
    ensures ok <==> tts == Completed
    ensures tts == Raised ==> !ok
  {
    match tts
    case Completed => true
    case Raised => false
  }

  /** `get_audio_duration`: the MP3 length, or 0 when the file cannot be read. */
  function AudioDuration(length: Option<real>): (d: real)
    ensures length.None? ==> d == 0.0
    ensures length.Some? ==> d == length.value
  {
    match length
    case Some(l) => l
    case None => 0.0
  }

  const ImageEndpoint := "https://image.pollinations.ai/prompt/"
  const ImageSize := "width=1080&height=1920"
  const ImageQuery := "?" + ImageSize + "&nologo=true"

  /** The image-generation request: the prompt is inserted verbatim into the path and the
      size is always 1080 by 1920 (portrait 9:16). */
  function ImageUrl(prompt: string): (url: string)
    ensures |url| == |ImageEndpoint| + |prompt| + |ImageQuery|
    ensures url[..|ImageEndpoint|] == ImageEndpoint
    ensures url[|ImageEndpoint|..|ImageEndpoint| + |prompt|] == prompt
    ensures EndsWith(url, ImageQuery)
    ensures Occurs(ImageSize, url)
  {
    var url := ImageEndpoint + prompt + ImageQuery;
    assert url == (ImageEndpoint + prompt + "?") + ImageSize + "&nologo=true";
    OccursInMiddle(ImageEndpoint + prompt + "?", ImageSize, "&nologo=true");
    url
  }

  /** Reads the prompt back out of an image request. */
  function PromptOfImageUrl(url: string): string
    requires |ImageEndpoint| + |ImageQuery| <= |url|
  {
    url[|ImageEndpoint|..|url| - |ImageQuery|]
  }

  /** Distinct prompts give distinct requests: the prompt is recovered from its URL. */
  lemma ImageUrlRoundTrip(prompt: string)
    ensures |ImageEndpoint| + |ImageQuery| <= |ImageUrl(prompt)|
    ensures PromptOfImageUrl(ImageUrl(prompt)) == prompt
  {
  }

  /** A reply to an HTTP request: the call raised, or a response with a status code arrived. */
  datatype HttpReply = HttpRaised | Response(status: int)

  /** `generate_image`: True only when the reply has status 200 and the body was written. */
  function GenerateImage(reply: HttpReply, write: Effect): (ok: bool)
    ensures ok ==> reply == Response(200)
    ensures reply == Response(200) ==> (ok <==> write == Completed)
  {
    reply.Response? && reply.status == 200 && write == Completed
  }

  const StockEndpoint := "https://api.pexels.com/videos/search?query="
  const Portrait := "orientation=portrait"
  const OneResult := "per_page=1"
  const StockOptions := "&" + Portrait + "&" + OneResult + "&size=medium"

  /** The stock-video search request: portrait orientation, a single result. */
  function StockSearchUrl(query: string): (url: string)
    ensures |url| == |StockEndpoint| + |query| + |StockOptions|
    ensures url[..|StockEndpoint|] == StockEndpoint
    ensures url[|StockEndpoint| + |query|..] == StockOptions
    ensures url[|StockEndpoint|..|StockEndpoint| + |query|] == query
    ensures Occurs(Portrait, url)
    ensures Occurs(OneResult, url)
  {
    var url := StockEndpoint + query + StockOptions;
    assert url == (StockEndpoint + query + "&") + Portrait + ("&" + OneResult + "&size=medium");
    OccursInMiddle(StockEndpoint + query + "&", Portrait, "&" + OneResult + "&size=medium");
    assert url == (StockEndpoint + query + "&" + Portrait + "&") + OneResult + "&size=medium";
    OccursInMiddle(StockEndpoint + query + "&" + Portrait + "&", OneResult, "&size=medium");
    url
  }

  /** One rendition of a stock video: `{"file_type", "width", "link"}`. */
  datatype VideoFile = VideoFile(fileType: string, width: int, link: string)

  /** A stock video: its `video_files` list. */
  datatype StockVideo = StockVideo(files: seq<VideoFile>)

  /** The decoded search reply: the request raised; the body lists videos but lacks a key the
      code indexes on its way to the link (`video_files` of the first video, or `file_type`,
      `width` or `link` of a rendition it inspects), so a KeyError is caught; or a
      well-formed JSON body whose `"videos"` key may be absent. */
  datatype SearchReply = SearchRaised | SearchMalformed | SearchBody(videos: Option<seq<StockVideo>>)

  /** The preferred rendition: an MP4 no wider than the 1080-pixel output. */
  predicate Preferred(v: VideoFile)
  {
    v.fileType == "video/mp4" && v.width <= 1080
  }

  /** v is the rendition the source settles on: the first preferred one, or the first one
      when none is preferred. */
  ghost predicate IsChoice(files: seq<VideoFile>, v: VideoFile)
  {
    || (exists i :: 0 <= i < |files| && Preferred(files[i]) && (forall j :: 0 <= j < i ==> !Preferred(files[j]))
                    && v == files[i])
    || ((forall i :: 0 <= i < |files| ==> !Preferred(files[i])) && |files| > 0 && v == files[0])
  }

  /** The rule picks a single rendition: two choices from the same list are the same. */
  lemma IsChoiceUnique(files: seq<VideoFile>, a: VideoFile, b: VideoFile)
    requires IsChoice(files, a) && IsChoice(files, b)
    ensures a == b
  {
    if i :| 0 <= i < |files| && Preferred(files[i]) && (forall j :: 0 <= j < i ==> !Preferred(files[j])) && a == files[i] {
      var m :| 0 <= m < |files| && Preferred(files[m]) && (forall j :: 0 <= j < m ==> !Preferred(files[j])) && b == files[m];
      assert !(i < m) && !(m < i);
    }
  }

  /** The rendition choice of `search_pexels_video`: the first preferred rendition in list
      order, else the first rendition; None for an empty list, where the source's
      `video_files[0]` raises. */
  method SelectRendition(files: seq<VideoFile>) returns (best: Option<VideoFile>)
    ensures best.None? <==> |files| == 0
    ensures best.Some? ==> best.value in files && IsChoice(files, best.value)
    ensures forall i :: 0 <= i < |files| && Preferred(files[i]) && (forall j :: 0 <= j < i ==> !Preferred(files[j]))
              ==> best == Some(files[i])
    ensures (forall i :: 0 <= i < |files| ==> !Preferred(files[i])) && |files| > 0 ==> best == Some(files[0])
  {
    best := None;
    var i := 0;
    while i < |files|
      invariant 0 <= i <= |files|
      invariant forall j :: 0 <= j < i ==> !Preferred(files[j])
    {
      if Preferred(files[i]) {
        best := Some(files[i]);
        return;
      }
      i := i + 1;
    }
    if |files| > 0 {
      best := Some(files[0]);
    }
  }

  /** The reply lists a first video that has at least one rendition. */
  predicate ListsRenditions(reply: SearchReply)
  {
    reply.SearchBody? && reply.videos.Some? && |reply.videos.value| > 0 && |reply.videos.value[0].files| > 0
  }

  /** What a stock search did: the request it made (None when the key was missing), the
      rendition it downloaded, and its boolean result. */
  datatype StockSearch = StockSearch(request: Option<string>, chosen: Option<VideoFile>, ok: bool)

  /** `search_pexels_video(query, output_file, api_key)`, with the search reply and the
      outcome of downloading each link as inputs. */
  method SearchStockVideo(query: string, apiKey: string, reply: SearchReply, download: string -> Effect)
    returns (run: StockSearch)
    ensures !Present(apiKey) ==> run == StockSearch(None, None, false)
    ensures Present(apiKey) ==> run.request == Some(StockSearchUrl(query))
    // a rendition is chosen exactly when there is a key and the reply lists one
    ensures run.chosen.Some? <==> Present(apiKey) && ListsRenditions(reply)
    ensures reply.SearchRaised? || reply.SearchMalformed? ==> !run.ok
    ensures run.chosen.Some? ==> IsChoice(reply.videos.value[0].files, run.chosen.value)
    ensures run.ok <==> run.chosen.Some? && download(run.chosen.value.link) == Completed
  {
    if !Present(apiKey) {
      return StockSearch(None, None, false);
    }
    var url := StockSearchUrl(query);
    match reply
    case SearchRaised =>
      run := StockSearch(Some(url), None, false);
    case SearchMalformed =>
      run := StockSearch(Some(url), None, false);
    case SearchBody(videos) =>
      if videos.None? || |videos.value| == 0 {
        run := StockSearch(Some(url), None, false);
      } else {
        var best := SelectRendition(videos.value[0].files);
        match best
        case None =>
          run := StockSearch(Some(url), None, false);
        case Some(v) =>
          run := StockSearch(Some(url), best, download(v.link) == Completed);
      }
  }

  /** The visual step shared by both entry points: try stock video when it is enabled, and
      generate an image exactly when no stock video was obtained. */
  datatype VisualSteps = VisualSteps(stockTried: bool, stockOk: bool, imageTried: bool)

  function ObtainVisual(stockEnabled: bool, stockResult: bool): (s: VisualSteps)
    ensures s.stockTried <==> stockEnabled
    ensures s.stockOk ==> s.stockTried
    ensures s.imageTried <==> !s.stockOk
    ensures stockEnabled ==> s.stockOk == stockResult
  {
    var done := stockEnabled && stockResult;
    VisualSteps(stockEnabled, done, !done)
  }

  /** The visual step of one segment with the stock search spelled out: the search runs when
      stock footage is enabled, and an image is generated exactly when no enabled search
      found a rendition whose download completed. */
  method StockThenImage(stockEnabled: bool, query: string, apiKey: string, reply: SearchReply,
                        download: string -> Effect)
    returns (steps: VisualSteps, search: Option<StockSearch>)
    ensures search.Some? <==> stockEnabled
    ensures steps.stockTried <==> stockEnabled
    ensures search.Some? && Present(apiKey) ==> search.value.request == Some(StockSearchUrl(query))
    ensures steps == ObtainVisual(stockEnabled, search.Some? && search.value.ok)
    ensures steps.imageTried <==>
              !(stockEnabled && Present(apiKey) && ListsRenditions(reply)
                && exists v :: IsChoice(reply.videos.value[0].files, v) && download(v.link) == Completed)
  {
    var ok := false;
    search := None;
    if stockEnabled {
      var run := SearchStockVideo(query, apiKey, reply, download);
      search := Some(run);
      ok := run.ok;
      if Present(apiKey) && ListsRenditions(reply) && exists v :: IsChoice(reply.videos.value[0].files, v) && download(v.link) == Completed {
        var v :| IsChoice(reply.videos.value[0].files, v) && download(v.link) == Completed;
        IsChoiceUnique(reply.videos.value[0].files, v, run.chosen.value);
      }
    }
    steps := ObtainVisual(stockEnabled, ok);
  }
}

=== FILE: common.dfy ===
/** Python's `None`-or-value, used wherever a call of the system returns a value or `None`. */
module Common {

  datatype Option<+T> = None | Some(value: T) {

    /** `x if x is not None else default` */
    function GetOr(default: T): (r: T)
      ensures Some? ==> r == value
      ensures None? ==> r == default
    {
      match this
      case Some(v) => v
      case None => default
    }
  }
}

=== FILE: ingestion.dfy ===
/** News selection of src/ingestion.py. The feed entries are given; following a link's
    redirects, downloading a page and extracting its article text are input functions. */
module Ingestion {
  import opened Common
  import opened Text
  import opened Model

  /** A feed entry: its title and link. */
  datatype FeedEntry = FeedEntry(title: string, link: string)

  /** Following a link's redirects: the request raised, or it ended at a final URL. */
  datatype Resolution = ResolveRaised | ResolvedTo(url: string)

  /** The web as the ingestion code sees it: redirect resolution, page download (None or an
      empty page when nothing came back) and article extraction (None when no text). */
  datatype Web = Web(resolve: string -> Resolution, fetch: string -> Option<string>,
                     extract: string -> Option<string>)

  /** `resolve_url`: the final URL after redirects, or the link itself when resolution raises. */
  function ResolveUrl(link: string, resolution: Resolution): (url: string)
    ensures resolution.ResolveRaised? ==> url == link
    ensures resolution.ResolvedTo? ==> url == resolution.url
  {
    match resolution
    case ResolveRaised => link
    case ResolvedTo(u) => u
  }

  /** A link that still points at Google News (not an article page), so redirects were not
      followed to the publisher. */
  predicate GoogleLoopback(url: string)
  {
    Occurs("google.com", url) && !Occurs("articles", url)
  }

  /** Only entries at these feed positions are examined. */
  const EntriesExamined := 3

  /** An article is used only when its extracted text is longer than this. */
  const MinContentLength := 200

  /** The page at a resolved URL is used: it is not a loopback, it downloads to something
      non-empty, and the text extracted from it is longer than 200 characters. */
  predicate Accepted(url: string, web: Web)
  {
    && !GoogleLoopback(url)
    && web.fetch(url).Some? && |web.fetch(url).value| > 0
    && web.extract(web.fetch(url).value).Some?
    && |web.extract(web.fetch(url).value).value| > MinContentLength
  }

  /** What one entry yields: the news item, or None when it is skipped. */
  function Candidate(entry: FeedEntry, web: Web): (item: Option<NewsItem>)
    ensures item.Some? ==> |item.value.content| > MinContentLength
    ensures item.Some? ==> item.value.title == entry.title
    ensures item.Some? ==> item.value.link == Some(ResolveUrl(entry.link, web.resolve(entry.link)))
    ensures GoogleLoopback(ResolveUrl(entry.link, web.resolve(entry.link))) ==> item.None?
    // an entry is accepted exactly when its page is not a loopback, downloads non-empty and
    // yields more than 200 characters, and the item then carries that extracted text
    ensures var url := ResolveUrl(entry.link, web.resolve(entry.link));
            item.Some? <==> Accepted(url, web)
    ensures var url := ResolveUrl(entry.link, web.resolve(entry.link));
            item.Some? ==> item.value.content == web.extract(web.fetch(url).value).value
  {
    var resolved := ResolveUrl(entry.link, web.resolve(entry.link));
    if GoogleLoopback(resolved) then None
    else match web.fetch(resolved)
      case None => None
      case Some(page) =>
        if |page| == 0 then None
        else match web.extract(page)
          case None => None
          case Some(text) =>
            if |text| > MinContentLength then Some(NewsItem(entry.title, Some(resolved), text)) else None
  }

  /** `fetch_news_topic`: the first of the top three entries that yields an article. */
  method FetchNewsTopic(entries: seq<FeedEntry>, web: Web) returns (item: Option<NewsItem>)
    ensures |entries| == 0 ==> item.None?
    ensures item.Some? ==> |item.value.content| > MinContentLength
    ensures item.Some? ==>
              exists k :: 0 <= k < |entries| && k < EntriesExamined && item == Candidate(entries[k], web)
                          && forall j :: 0 <= j < k ==> Candidate(entries[j], web).None?
    ensures item.None? <==> forall k :: 0 <= k < |entries| && k < EntriesExamined ==> Candidate(entries[k], web).None?
  {
    if |entries| == 0 {
      return None;
    }
    var top := if |entries| <= EntriesExamined then entries else entries[..EntriesExamined];
    var i := 0;
    while i < |top|
      invariant 0 <= i <= |top|
      invariant forall j :: 0 <= j < i ==> Candidate(entries[j], web).None?
    {
      var c := Candidate(top[i], web);
      if c.Some? {
        return c;
      }
      i := i + 1;
    }
    return None;
  }

  /** A feed link of the form https://news.google.com/rss/articles/<id> names both
      "google.com" and "articles", so when its resolution raises the entry is not skipped as a
      loopback but downloaded as it stands. */
  lemma UnresolvedFeedLinkIsKept(id: string, web: Web)
    requires web.resolve("https://news.google.com/rss/articles/" + id).ResolveRaised?
    ensures !GoogleLoopback(ResolveUrl("https://news.google.com/rss/articles/" + id,
                                       web.resolve("https://news.google.com/rss/articles/" + id)))
  {
    var link := "https://news.google.com/rss/articles/" + id;
    assert link == "https://news.google.com/rss/" + "articles" + ("/" + id);
    OccursInMiddle("https://news.google.com/rss/", "articles", "/" + id);
  }
}

=== FILE: manual_run.dfy ===
/** The command-line run of manual_run.py: reading the API keys (environment first, then a
    `.env` file), choosing the news item, substituting a fixed script when synthesis fails,
    and choosing each segment's visual source. */
module ManualRun {
  import opened Common
  import opened Text
  import opened Model
  import Assets
  import Synthesis
  import Ingestion

  /** The three keys; None when the variable is unset. */
  datatype Keys = Keys(gemini: Option<string>, pexels: Option<string>, groq: Option<string>)

  /** A key is truthy when it is set and not empty. */
  predicate Truthy(key: Option<string>)
  {
    key.Some? && |key.value| > 0
  }

  /** The key as the string passed on to the providers; `None` and "" are both falsy. */
  function KeyText(key: Option<string>): (s: string)
    ensures Present(s) <==> Truthy(key)
  {
    key.GetOr("")
  }

  /** The `.env` file is consulted only when at least one key is missing or empty. */
  predicate NeedsDotEnv(env: Keys)
  {
    !Truthy(env.gemini) || !Truthy(env.pexels) || !Truthy(env.groq)
  }

  datatype KeyName = Gemini | Pexels | Groq

  /** The key a `.env` line sets: the first of GEMINI_API_KEY, PEXELS_API_KEY, GROQ_API_KEY
      that occurs anywhere in the line. */
  function LineKey(line: string): (k: Option<KeyName>)
    ensures k == Some(Gemini) <==> Occurs("GEMINI_API_KEY", line)
    ensures k == Some(Pexels) <==> !Occurs("GEMINI_API_KEY", line) && Occurs("PEXELS_API_KEY", line)
    ensures k == Some(Groq) <==>
              !Occurs("GEMINI_API_KEY", line) && !Occurs("PEXELS_API_KEY", line) && Occurs("GROQ_API_KEY", line)
  {
    if Occurs("GEMINI_API_KEY", line) then Some(Gemini)
    else if Occurs("PEXELS_API_KEY", line) then Some(Pexels)
    else if Occurs("GROQ_API_KEY", line) then Some(Groq)
    else None
  }

  /** `line.split("=")[1].strip()`: None where the line has no '=' and Python raises
      IndexError. */
  function LineValue(line: string): (v: Option<string>)
    ensures v.None? <==> '=' !in line
    ensures v.Some? ==> '=' !in v.value
    ensures v.Some? ==> |v.value| == 0 || (!IsSpace(v.value[0]) && !IsSpace(v.value[|v.value| - 1]))
    // the value is what stripping leaves of the field between the first '=' and the next '='
    // or the end of the line
    ensures v.Some? ==> SecondField(line).Some? && StrippedOf(SecondField(line).value, v.value)
  {
    match SecondField(line)
    case None => None
    case Some(field) =>
      StripAddsNothing(field, '=');
      Some(Strip(field))
  }

  function Get(keys: Keys, name: KeyName): Option<string>
  {
    match name
    case Gemini => keys.gemini
    case Pexels => keys.pexels
    case Groq => keys.groq
  }

  function Set(keys: Keys, name: KeyName, value: string): (r: Keys)
    ensures Get(r, name) == Some(value)
    ensures forall other :: other != name ==> Get(r, other) == Get(keys, other)
  {
    match name
    case Gemini => keys.(gemini := Some(value))
    case Pexels => keys.(pexels := Some(value))
    case Groq => keys.(groq := Some(value))
  }

  /** One pass of the line loop: the keys afterwards, or None when the line raises. */
  function ApplyLine(keys: Keys, line: string): Option<Keys>
  {
    match LineKey(line)
    case None => Some(keys)
    case Some(name) =>
      match LineValue(line)
      case None => None
      case Some(v) => Some(Set(keys, name, v))
  }

  /** The line loop over the file, in order; None once a line raises. A key it returns is
      the one it was given or the value of some line naming that key. */
  function ApplyLines(keys: Keys, lines: seq<string>): (r: Option<Keys>)
    ensures r.Some? ==> forall name :: Get(r.value, name) == Get(keys, name) || SetByLine(lines, name, Get(r.value, name))
    decreases |lines|
  {
    if |lines| == 0 then Some(keys)
    else match ApplyLines(keys, lines[..|lines| - 1])
      case None => None
      case Some(k) => ApplyLine(k, lines[|lines| - 1])
  }

  /** Some line names the key and gives it this value. */
  ghost predicate SetByLine(lines: seq<string>, name: KeyName, value: Option<string>)
  {
    exists i :: 0 <= i < |lines| && LineKey(lines[i]) == Some(name) && LineValue(lines[i]) == value
  }

  /** The loop raises exactly when some line names a key but has no '='. */
  lemma {:induction false} ApplyLinesRaisesIff(keys: Keys, lines: seq<string>)
    ensures ApplyLines(keys, lines).None? <==>
              exists i :: 0 <= i < |lines| && LineKey(lines[i]).Some? && '=' !in lines[i]
    decreases |lines|
  {
    if |lines| > 0 {
      var init := lines[..|lines| - 1];
      ApplyLinesRaisesIff(keys, init);
      assert forall i :: 0 <= i < |init| ==> init[i] == lines[i];
      if exists i :: 0 <= i < |lines| && LineKey(lines[i]).Some? && '=' !in lines[i] {
        var i :| 0 <= i < |lines| && LineKey(lines[i]).Some? && '=' !in lines[i];
        if i < |init| {
          assert LineKey(init[i]).Some? && '=' !in init[i];
        }
      }
    }
  }

  /** A key that no line names keeps the value it had before the file was read. */
  lemma {:induction false} UnnamedKeyKept(keys: Keys, lines: seq<string>, name: KeyName)
    requires ApplyLines(keys, lines).Some?
    requires forall i :: 0 <= i < |lines| ==> LineKey(lines[i]) != Some(name)
    ensures Get(ApplyLines(keys, lines).value, name) == Get(keys, name)
    decreases |lines|
  {
    if |lines| > 0 {
      var init := lines[..|lines| - 1];
      assert forall i :: 0 <= i < |init| ==> init[i] == lines[i];
      UnnamedKeyKept(keys, init, name);
    }
  }

  /** The last line naming a key decides its value, whatever the environment or earlier
      lines said. */
  lemma {:induction false} LastLineWins(keys: Keys, lines: seq<string>, name: KeyName, i: nat)
    requires ApplyLines(keys, lines).Some?
    requires i < |lines| && LineKey(lines[i]) == Some(name)
    requires forall j :: i < j < |lines| ==> LineKey(lines[j]) != Some(name)
    ensures LineValue(lines[i]).Some?
    ensures Get(ApplyLines(keys, lines).value, name) == LineValue(lines[i])
    decreases |lines|
  {
    var init := lines[..|lines| - 1];
    assert forall j :: 0 <= j < |init| ==> init[j] == lines[j];
    if i == |lines| - 1 {
      assert ApplyLines(keys, init).Some?;
    } else {
      LastLineWins(keys, init, name, i);
    }
  }

  /** The keys the run uses: the environment's, overridden line by line from `.env` when a
      key is missing and the file exists (`dotenv` is its lines); None when a line raises. */
  function LoadKeys(env: Keys, dotenv: Option<seq<string>>): (r: Option<Keys>)
    ensures !NeedsDotEnv(env) || dotenv.None? ==> r == Some(env)
    ensures NeedsDotEnv(env) && dotenv.Some? ==> r == ApplyLines(env, dotenv.value)
  {
    if NeedsDotEnv(env) && dotenv.Some? then ApplyLines(env, dotenv.value) else Some(env)
  }

  /** The topic of the built-in news item. */
  const Topic := "Artificial Intelligence trends 2025"

  /** The news item used unless a fetch returns one. */
  function DefaultNews(): NewsItem
  {
    NewsItem(Topic, None, "A comprehensive update on " + Topic + ".")
  }

  /** The fetch of the news topic: it raised, or it returned an item or None. */
  datatype FetchOutcome = FetchRaised | Fetched(item: Option<NewsItem>)

  /** The default news item is replaced only by an item the fetch returned. */
  function ChooseNews(fetch: FetchOutcome): (n: NewsItem)
    ensures fetch.Fetched? && fetch.item.Some? ==> n == fetch.item.value
    ensures !(fetch.Fetched? && fetch.item.Some?) ==> n == DefaultNews()
  {
    match fetch
    case Fetched(Some(item)) => item
    case _ => DefaultNews()
  }

  /** The built-in four-segment script. */
  const FallbackScript := Script(Some("Cyberpunk"), Some([
    Segment("AI agents are taking over the software world.", "Futuristic coding robot"),
    Segment("They can now build entire tools from scratch.", "Holographic interface being built"),
    Segment("Generative video is the next big frontier.", "Cinema camera merging with computer chip"),
    Segment("The future is automated.", "Robot hand shaking human hand")
  ]), 0)

  /** The fallback script is substituted exactly when synthesis gives nothing truthy, so the
      run always goes on with a non-empty script. */
  function ChooseScript(synthesized: Option<Script>): (s: Script)
    ensures s.Truthy()
    ensures synthesized.Some? && synthesized.value.Truthy() ==> s == synthesized.value
    ensures !(synthesized.Some? && synthesized.value.Truthy()) ==> s == FallbackScript && |s.Segments()| == 4
  {
    if synthesized.Some? && synthesized.value.Truthy() then synthesized.value else FallbackScript
  }

  /** The script the run renders: synthesized from the chosen news item, or the fallback. */
  function RunScript(keys: Keys, fetch: FetchOutcome,
                     gemini: (Synthesis.Prompt, nat) -> Synthesis.Reply, groq: Synthesis.Prompt -> Synthesis.Reply,
                     parse: string -> Option<Script>): (s: Script)
    ensures s.Truthy()
  {
    var run := Synthesis.GenerateScript(ChooseNews(fetch), KeyText(keys.gemini), KeyText(keys.groq), gemini, groq, parse);
    ChooseScript(run.result)
  }

  /** With neither text-generation key the run renders the fallback script. */
  lemma NoTextKeysUseFallback(keys: Keys, fetch: FetchOutcome,
                              gemini: (Synthesis.Prompt, nat) -> Synthesis.Reply, groq: Synthesis.Prompt -> Synthesis.Reply,
                              parse: string -> Option<Script>)
    requires !Truthy(keys.gemini) && !Truthy(keys.groq)
    ensures RunScript(keys, fetch, gemini, groq, parse) == FallbackScript
  {
  }

  /** Each segment's visual: stock video when the Pexels key is truthy, an image exactly when
      that did not succeed. */
  function SegmentVisual(pexels: Option<string>, stockOk: bool): (v: Assets.VisualSteps)
    ensures v.stockTried <==> Truthy(pexels)
    ensures v.imageTried <==> !(Truthy(pexels) && stockOk)
  {
    Assets.ObtainVisual(Truthy(pexels), stockOk)
  }

  /** The visual step of one segment with the stock search run on the segment's image
      prompt: an image is generated exactly when no Pexels key is set or the search found no
      rendition whose download completed. */
  method SegmentVisualRun(pexels: Option<string>, prompt: string, reply: Assets.SearchReply,
                          download: string -> Assets.Effect)
    returns (steps: Assets.VisualSteps)
    ensures steps.stockTried <==> Truthy(pexels)
    ensures steps.imageTried <==>
              !(Truthy(pexels) && Assets.ListsRenditions(reply)
                && exists v :: Assets.IsChoice(reply.videos.value[0].files, v) && download(v.link) == Assets.Completed)
    ensures steps == SegmentVisual(pexels, steps.stockOk)
  {
    var search;
    steps, search := Assets.StockThenImage(Truthy(pexels), prompt, KeyText(pexels), reply, download);
  }

  /** None of the feed's top three entries yields an article. */
  predicate NoCandidate(entries: seq<Ingestion.FeedEntry>, web: Ingestion.Web)
  {
    forall k :: 0 <= k < |entries| && k < Ingestion.EntriesExamined ==> Ingestion.Candidate(entries[k], web).None?
  }

  /** The news item of a run: the first usable article among the feed's top three entries,
      or the built-in item when the fetch raises or finds none. */
  method RunNews(raised: bool, entries: seq<Ingestion.FeedEntry>, web: Ingestion.Web) returns (n: NewsItem)
    ensures raised ==> n == DefaultNews()
    ensures n == DefaultNews() || |n.content| > Ingestion.MinContentLength
    ensures !raised && n != DefaultNews() ==>
              exists k :: 0 <= k < |entries| && k < Ingestion.EntriesExamined && n.title == entries[k].title
    ensures !raised ==> (n == DefaultNews() <==> NoCandidate(entries, web))
  {
    if raised {
      return ChooseNews(FetchRaised);
    }
    var item := Ingestion.FetchNewsTopic(entries, web);
    n := ChooseNews(Fetched(item));
  }
}

=== FILE: model.dfy ===
/** The data the pipeline passes between its stages: script segments, the script a text
    provider returns, and the news item the script is written from. */
module Model {
  import opened Common

  /** One narrated beat: `{"text": ..., "image_prompt": ...}`. */
  datatype Segment = Segment(text: string, imagePrompt: string)

  /** The JSON object a text provider returns, as far as the pipeline reads it: the two keys
      it looks up, each possibly absent, and the number of any other keys. */
  datatype Script = Script(musicMood: Option<string>, segments: Option<seq<Segment>>, otherKeys: nat) {

    /** Python truthiness of a dict: it has at least one key. */
    predicate Truthy()
    {
      musicMood.Some? || segments.Some? || otherKeys > 0
    }

    /** `script.get("segments", [])` */
    function Segments(): seq<Segment>
    {
      segments.GetOr([])
    }

    /** `script.get("music_mood", "N/A")` */
    function Mood(): string
    {
      musicMood.GetOr("N/A")
    }
  }

  /** `{"title": ..., "content": ...}`, with the `"link"` key that only fetched news carries. */
  datatype NewsItem = NewsItem(title: string, link: Option<string>, content: string)

  /** An API key is usable when it is truthy: neither `None` nor the empty string.
      Keys read from widgets or secrets are strings, so "" stands for both. */
  predicate Present(key: string)
  {
    |key| > 0
  }
}

=== FILE: synthesis.dfy ===
/** Script synthesis of src/synthesis.py: a primary text provider (Gemini) tried up to three
    times, then a secondary one (Groq) tried once. Each provider is an input function from the
    prompt (and, for the primary, the attempt number) to its reply; `parse` stands for
    `json.loads`, None where it raises. */
module Synthesis {
  import opened Common
  import opened Text
  import opened Model

  /** Only this many characters of the article reach a prompt. */
  const ExcerptLength := 2000

  /** `content[:2000]`. */
  function Excerpt(content: string): (e: string)
    ensures |e| == if |content| < ExcerptLength then |content| else ExcerptLength
    ensures |e| <= |content| && e == content[..|e|]
  {
    if |content| <= ExcerptLength then content else content[..ExcerptLength]
  }

  /** What varies between prompts: the title and the article excerpt. The instructions around
      them are fixed text and are not modelled. */
  datatype Prompt = Prompt(title: string, excerpt: string)

  /** The prompt built for a news item; both providers are given the same fields. */
  function PromptFor(news: NewsItem): (p: Prompt)
    ensures p.title == news.title
    ensures |p.excerpt| <= ExcerptLength && |p.excerpt| <= |news.content|
    ensures p.excerpt == news.content[..|p.excerpt|]
  {
    Prompt(news.title, Excerpt(news.content))
  }

  /** A provider call: it raised, or it returned a reply text. */
  datatype Reply = CallRaised | Replied(text: string)

  /** `text.replace("```json", "").replace("```", "")`. */
  function StripFences(text: string): (r: string)
    ensures !Occurs(Fence, r)
    ensures !Occurs(JsonFence, r)
    ensures |r| <= |text|
    ensures !Occurs(Fence, text) ==> r == text
  {
    var once := RemoveAll(text, JsonFence);
    var r := RemoveAll(once, Fence);
    RemoveFenceLeavesNone(once);
    NoFenceNoJsonFence(r);
    NoFenceNoJsonFence(text);
    r
  }

  /** A text without ``` has no ```json either. */
  lemma NoFenceNoJsonFence(s: string)
    ensures !Occurs(Fence, s) ==> !Occurs(JsonFence, s)
  {
  }

  /** A reply wrapped as ```json ... ``` around text without backticks comes out as exactly
      that text: the clean-up removes the fences and keeps the JSON. */
  lemma StripFencesKeepsBody(body: string)
    requires '`' !in body
    ensures StripFences(JsonFence + body + Fence) == body
  {
    var reply := JsonFence + body + Fence;
    assert reply[..|JsonFence|] == JsonFence;
    assert reply[|JsonFence|..] == body + Fence;
    RemoveAllSkipsPlain(body, Fence, JsonFence);
    assert RemoveAll(Fence, JsonFence) == Fence;
    RemoveAllSkipsPlain(body, Fence, Fence);
    assert Fence[..|Fence|] == Fence;
    assert RemoveAll(Fence, Fence) == RemoveAll(Fence[|Fence|..], Fence);
    assert body + [] == body;
  }

  /** Stripping fences a second time changes nothing. */
  lemma StripFencesIdempotent(text: string)
    ensures StripFences(StripFences(text)) == StripFences(text)
  {
  }

  /** One Gemini attempt: the reply text loses its code fences and is parsed. None where the
      call, reading the reply or `json.loads` raises. */
  function GeminiAttempt(reply: Reply, parse: string -> Option<Script>): Option<Script>
  {
    match reply
    case CallRaised => None
    case Replied(text) => parse(StripFences(text))
  }

  /** Parsing sees the reply with its fences gone: a reply already stripped of them is
      parsed to the same result. */
  lemma GeminiAttemptIgnoresFences(text: string, parse: string -> Option<Script>)
    ensures GeminiAttempt(Replied(StripFences(text)), parse) == GeminiAttempt(Replied(text), parse)
  {
  }

  /** The primary provider is tried at most this many times. */
  const MaxAttempts := 3

  /** Attempt k of the primary provider yields a script. */
  predicate AttemptParses(p: Prompt, gemini: (Prompt, nat) -> Reply, parse: string -> Option<Script>, k: nat)
  {
    GeminiAttempt(gemini(p, k), parse).Some?
  }

  /** The primary retry loop from attempt `attempt` on: the script it returns (if any) and
      the number of attempts made in all. */
  function GeminiLoop(p: Prompt, gemini: (Prompt, nat) -> Reply, parse: string -> Option<Script>, attempt: nat)
    : (r: (Option<Script>, nat))
    requires attempt <= MaxAttempts
    ensures attempt <= r.1 <= MaxAttempts
    ensures forall k :: attempt <= k < r.1 - 1 ==> !AttemptParses(p, gemini, parse, k)
    ensures r.0.Some? ==> attempt < r.1 && r.0 == GeminiAttempt(gemini(p, r.1 - 1), parse)
    ensures r.0.None? ==> r.1 == MaxAttempts && forall k :: attempt <= k < MaxAttempts ==> !AttemptParses(p, gemini, parse, k)
    decreases MaxAttempts - attempt
  {
    if attempt == MaxAttempts then (None, attempt)
    else match GeminiAttempt(gemini(p, attempt), parse)
      case Some(s) => (Some(s), attempt + 1)
      case None => GeminiLoop(p, gemini, parse, attempt + 1)
  }

  /** `generate_script_groq`: the reply content parsed as JSON, without fence stripping;
      None when the request, the status check, reading the reply or the parse raises. */
  function GroqScript(p: Prompt, groq: Prompt -> Reply, parse: string -> Option<Script>): (r: Option<Script>)
    ensures groq(p).CallRaised? ==> r.None?
    ensures groq(p).Replied? ==> r == parse(groq(p).text)
  {
    match groq(p)
    case CallRaised => None
    case Replied(text) => parse(text)
  }

  /** What `generate_script` did: its result, how many primary attempts it made and whether
      it called the secondary provider. */
  datatype Run = Run(result: Option<Script>, primaryAttempts: nat, secondaryCalled: bool)

  /** Some attempt of the primary provider, within the bound, yields a script. */
  predicate PrimaryCanProduce(p: Prompt, gemini: (Prompt, nat) -> Reply, parse: string -> Option<Script>)
  {
    exists k :: 0 <= k < MaxAttempts && AttemptParses(p, gemini, parse, k)
  }

  /** `generate_script(news_item, gemini_key, groq_key)`. */
  function GenerateScript(news: NewsItem, geminiKey: string, groqKey: string,
                          gemini: (Prompt, nat) -> Reply, groq: Prompt -> Reply,
                          parse: string -> Option<Script>): (run: Run)
    ensures run.primaryAttempts <= MaxAttempts
    ensures run.primaryAttempts == 0 <==> !Present(geminiKey)
    // the first script the primary provider yields is returned at once
    ensures Present(geminiKey) && PrimaryCanProduce(PromptFor(news), gemini, parse) ==>
              && !run.secondaryCalled
              && run.result.Some?
              && run.result == GeminiAttempt(gemini(PromptFor(news), run.primaryAttempts - 1), parse)
              && forall k :: 0 <= k < run.primaryAttempts - 1 ==> !AttemptParses(PromptFor(news), gemini, parse, k)
    // otherwise the primary was absent or used all its attempts, and the secondary is tried
    // exactly when its key is present
    ensures !(Present(geminiKey) && PrimaryCanProduce(PromptFor(news), gemini, parse)) ==>
              && (Present(geminiKey) ==> run.primaryAttempts == MaxAttempts)
              && (run.secondaryCalled <==> Present(groqKey))
    // the secondary's result is kept only when it is truthy
    ensures run.secondaryCalled ==>
              var g := GroqScript(PromptFor(news), groq, parse);
              run.result == if g.Some? && g.value.Truthy() then g else None
    ensures run.result.None? ==> (!Present(geminiKey) || !PrimaryCanProduce(PromptFor(news), gemini, parse))
    // neither provider produced a script: nothing comes back
    ensures !run.secondaryCalled && !(Present(geminiKey) && PrimaryCanProduce(PromptFor(news), gemini, parse)) ==>
              run.result.None?
  {
    var p := PromptFor(news);
    var (primary, attempts) := if Present(geminiKey) then GeminiLoop(p, gemini, parse, 0) else (None, 0);
    if primary.Some? then
      assert AttemptParses(p, gemini, parse, attempts - 1);
      Run(primary, attempts, false)
    else if Present(groqKey) then
      var g := GroqScript(p, groq, parse);
      Run(if g.Some? && g.value.Truthy() then g else None, attempts, true)
    else
      Run(None, attempts, false)
  }

  /** Characters past the first 2000 of the article never influence the script. */
  lemma ArticleTailIgnored(a: NewsItem, b: NewsItem, geminiKey: string, groqKey: string,
                           gemini: (Prompt, nat) -> Reply, groq: Prompt -> Reply,
                           parse: string -> Option<Script>)
    requires a.title == b.title
    requires |a.content| >= ExcerptLength && |b.content| >= ExcerptLength
    requires a.content[..ExcerptLength] == b.content[..ExcerptLength]
    ensures GenerateScript(a, geminiKey, groqKey, gemini, groq, parse)
         == GenerateScript(b, geminiKey, groqKey, gemini, groq, parse)
  {
  }
}

=== FILE: text.dfy ===
/** String helpers with the meaning Python gives them: substring search (`p in s`),
    `str.replace(p, "")`, `str.strip()`, `str.lower()` on ASCII letters, `str.endswith`,
    `line.split("=")[1]` and `str(n)`. */
module Text {
  import opened Common

  /** `p in s`: p occurs as a contiguous block of s. */
  predicate Occurs(p: string, s: string)
    decreases |s|
  {
    |p| <= |s| && (s[..|p|] == p || (|s| > 0 && Occurs(p, s[1..])))
  }

  /** The position-based reading of `Occurs`. */
  ghost predicate OccursAt(p: string, s: string, i: int)
  {
    0 <= i && i + |p| <= |s| && s[i..i + |p|] == p
  }

  lemma {:induction false} OccursIffSomePosition(p: string, s: string)
    ensures Occurs(p, s) <==> exists i :: OccursAt(p, s, i)
    decreases |s|
  {
    if |p| <= |s| && s[..|p|] == p {
      assert OccursAt(p, s, 0);
    } else if |p| <= |s| && |s| > 0 {
      OccursIffSomePosition(p, s[1..]);
      if Occurs(p, s[1..]) {
        var i :| OccursAt(p, s[1..], i);
        assert s[i + 1..i + 1 + |p|] == s[1..][i..i + |p|];
        assert OccursAt(p, s, i + 1);
      }
      if i :| OccursAt(p, s, i) {
        assert i != 0;
        assert s[1..][i - 1..i - 1 + |p|] == s[i..i + |p|];
        assert OccursAt(p, s[1..], i - 1);
      }
    } else {
      assert forall i :: !OccursAt(p, s, i);
    }
  }

  /** A block placed between two strings is found in their concatenation. */
  lemma {:induction false} OccursInMiddle(a: string, p: string, b: string)
    ensures Occurs(p, a + p + b)
    decreases |a|
  {
    if |a| == 0 {
      assert (a + p + b)[..|p|] == p;
    } else {
      assert (a + p + b)[1..] == a[1..] + p + b;
      OccursInMiddle(a[1..], p, b);
    }
  }

  /** `s.replace(p, "")`: scan left to right, dropping each non-overlapping occurrence of p. */
  function RemoveAll(s: string, p: string): (r: string)
    requires |p| > 0
    ensures |r| <= |s|
    ensures !Occurs(p, s) ==> r == s
    decreases |s|
  {
    if |s| < |p| then s
    else if s[..|p|] == p then RemoveAll(s[|p|..], p)
    else [s[0]] + RemoveAll(s[1..], p)
  }

  /** Removing p from a string that does not start with p keeps its first character. */
  lemma RemoveAllKeepsHead(t: string, p: string)
    requires |p| > 0 && |t| > 0
    requires !(|t| >= |p| && t[..|p|] == p)
    ensures |RemoveAll(t, p)| > 0 && RemoveAll(t, p)[0] == t[0]
  {
  }

  const Fence := "```"
  const JsonFence := "```json"

  /** A string whose first character cannot start p keeps that character. */
  lemma RemoveAllKeepsMismatch(s: string, p: string)
    requires 0 < |p| <= |s| && s[0] != p[0]
    ensures RemoveAll(s, p) == [s[0]] + RemoveAll(s[1..], p)
  {
    assert s[..|p|][0] != p[0];
  }

  /** Text without a backtick passes through the removal of a pattern that starts with one. */
  lemma {:induction false} RemoveAllSkipsPlain(x: string, t: string, p: string)
    requires |p| > 0 && p[0] == '`'
    requires '`' !in x
    ensures RemoveAll(x + t, p) == x + RemoveAll(t, p)
    decreases |x|
  {
    var s := x + t;
    if |x| == 0 {
      assert s == t;
    } else if |s| < |p| {
      assert RemoveAll(t, p) == t;
    } else {
      var rest := x[1..];
      assert x[0] in x;
      RemoveAllKeepsMismatch(s, p);
      assert s[1..] == rest + t;
      assert forall c :: c in rest ==> c in x;
      RemoveAllSkipsPlain(rest, t, p);
      assert x == [x[0]] + rest;
    }
  }

  /** After removing every ``` no ``` is left: the removal cannot glue a new one together. */
  lemma {:induction false} RemoveFenceLeavesNone(s: string)
    ensures !Occurs(Fence, RemoveAll(s, Fence))
    decreases |s|
  {
    if |s| < 3 {
    } else if s[..3] == Fence {
      RemoveFenceLeavesNone(s[3..]);
    } else {
      var t := s[1..];
      RemoveFenceLeavesNone(t);
      var r := RemoveAll(t, Fence);
      assert RemoveAll(s, Fence) == [s[0]] + r;
      assert ([s[0]] + r)[1..] == r;
      if s[0] == '`' {
        assert s[1] != '`' || s[2] != '`';
        assert !(|t| >= 3 && t[..3] == Fence);
        RemoveAllKeepsHead(t, Fence);
        if s[1] == '`' {
          if |t| >= 3 {
            assert t[1..] == s[2..];
            RemoveAllKeepsHead(s[2..], Fence);
          }
          assert |r| < 2 || r[1] != '`';
        }
      }
    }
  }

  /** Python `str.isspace()` on ASCII: space, \t, \n, \v, \f, \r and the four separators
      \x1c to \x1f. */
  predicate IsSpace(c: char)
  {
    c == ' ' || c == '\t' || c == '\n' || c == '\r' || c == '\U{B}' || c == '\U{C}' || '\U{1C}' <= c <= '\U{1F}'
  }

  /** Number of whitespace characters at the front of s. */
  function LeadingSpaces(s: string): (n: nat)
    ensures n <= |s|
    ensures forall k :: 0 <= k < n ==> IsSpace(s[k])
    ensures n < |s| ==> !IsSpace(s[n])
    decreases |s|
  {
    if |s| > 0 && IsSpace(s[0]) then 1 + LeadingSpaces(s[1..]) else 0
  }

  /** Number of whitespace characters at the back of s. */
  function TrailingSpaces(s: string): (n: nat)
    ensures n <= |s|
    ensures forall k :: |s| - n <= k < |s| ==> IsSpace(s[k])
    ensures n < |s| ==> !IsSpace(s[|s| - n - 1])
    decreases |s|
  {
    if |s| > 0 && IsSpace(s[|s| - 1]) then 1 + TrailingSpaces(s[..|s| - 1]) else 0
  }

  /** r is a slice of s with only whitespace outside it, and r neither starts nor ends with
      whitespace. */
  ghost predicate StrippedOf(s: string, r: string)
  {
    && (exists i, j :: 0 <= i <= j <= |s| && r == s[i..j]
          && (forall k :: 0 <= k < i ==> IsSpace(s[k]))
          && (forall k :: j <= k < |s| ==> IsSpace(s[k])))
    && (|r| > 0 ==> !IsSpace(r[0]) && !IsSpace(r[|r| - 1]))
  }

  /** `s.strip()`: the slice of s left after dropping whitespace at both ends. */
  function Strip(s: string): (r: string)
    ensures StrippedOf(s, r)
  {
    var a := LeadingSpaces(s);
    if a == |s| then
      assert s[a..a] == [];
      []
    else
      var b := TrailingSpaces(s);
      assert b < |s| - a by {
        assert !IsSpace(s[a]);
      }
      s[a..|s| - b]
  }

  /** Where `Strip` cuts: the bounds of the slice it keeps. */
  lemma StripBounds(f: string) returns (i: nat, j: nat)
    ensures i <= j <= |f| && Strip(f) == f[i..j]
    ensures forall k :: 0 <= k < i ==> IsSpace(f[k])
    ensures forall k :: j <= k < |f| ==> IsSpace(f[k])
  {
    i, j :| 0 <= i <= j <= |f| && Strip(f) == f[i..j]
            && (forall k :: 0 <= k < i ==> IsSpace(f[k]))
            && (forall k :: j <= k < |f| ==> IsSpace(f[k]));
  }

  /** Stripping only removes characters. */
  lemma StripAddsNothing(s: string, c: char)
    ensures c !in s ==> c !in Strip(s)
  {
    var r := Strip(s);
    var i, j := StripBounds(s);
    assert forall k :: 0 <= k < |r| ==> r[k] == s[i + k];
  }

  /** Position of the first occurrence of c in s. */
  function IndexOf(s: string, c: char): (r: Option<nat>)
    ensures r.Some? ==> r.value < |s| && s[r.value] == c
    ensures r.Some? ==> forall k :: 0 <= k < r.value ==> s[k] != c
    ensures r.None? <==> c !in s
    decreases |s|
  {
    if |s| == 0 then None
    else if s[0] == c then Some(0)
    else match IndexOf(s[1..], c)
      case None => None
      case Some(k) => Some(k + 1)
  }

  /** A prefix that IndexOf scanned past does not hold c. */
  lemma NotInPrefix(s: string, c: char, i: nat)
    requires i <= |s| && forall k :: 0 <= k < i ==> s[k] != c
    ensures c !in s[..i]
  {
    forall k | 0 <= k < i
      ensures s[..i][k] != c
    {
      assert s[..i][k] == s[k];
    }
  }

  /** `line.split("=")[1]`: the text after the first '=' up to the next '=' or the end;
      None where Python raises IndexError (no '=' in the line). */
  function SecondField(line: string): (r: Option<string>)
    ensures r.None? <==> '=' !in line
    ensures r.Some? ==> '=' !in r.value
    // the field starts just after the first '=' (IndexOf's position) and runs to the next '='
    // or the end of the line
    ensures r.Some? ==> IndexOf(line, '=').Some?
                        && var i := IndexOf(line, '=').value;
                           && i + 1 + |r.value| <= |line|
                           && line[i + 1..i + 1 + |r.value|] == r.value
                           && (i + 1 + |r.value| == |line| || line[i + 1 + |r.value|] == '=')
  {
    match IndexOf(line, '=')
    case None => None
    case Some(i) =>
      var rest := line[i + 1..];
      match IndexOf(rest, '=')
      case None =>
        assert line[i + 1..i + 1 + |rest|] == rest;
        Some(rest)
      case Some(j) =>
        NotInPrefix(rest, '=', j);
        assert line[i + 1..i + 1 + j] == rest[..j];
        Some(rest[..j])
  }

  /** `str.lower()` restricted to ASCII letters. */
  function LowerChar(c: char): (d: char)
    ensures 'A' <= c <= 'Z' ==> 'a' <= d <= 'z'
    ensures !('A' <= c <= 'Z') ==> d == c
  {
    if 'A' <= c <= 'Z' then (c as int - 'A' as int + 'a' as int) as char else c
  }

  function Lower(s: string): (r: string)
    ensures |r| == |s|
    ensures forall k :: 0 <= k < |s| ==> r[k] == LowerChar(s[k])
  {
    seq(|s|, k requires 0 <= k < |s| => LowerChar(s[k]))
  }

  /** `s.endswith(suffix)`. */
  predicate EndsWith(s: string, suffix: string)
  {
    |suffix| <= |s| && s[|s| - |suffix|..] == suffix
  }

  /** `"".join(parts)`. */
  function Concat(parts: seq<string>): string
    decreases |parts|
  {
    if |parts| == 0 then "" else Concat(parts[..|parts| - 1]) + parts[|parts| - 1]
  }

  /** Joining two lists one after the other joins each and concatenates the results. */
  lemma {:induction false} ConcatAppend(a: seq<string>, b: seq<string>)
    ensures Concat(a + b) == Concat(a) + Concat(b)
    decreases |b|
  {
    if |b| == 0 {
      assert a + b == a;
    } else {
      var init, last := b[..|b| - 1], b[|b| - 1];
      ConcatAppend(a, init);
      assert (a + b)[..|a + b| - 1] == a + init;
      assert (a + b)[|a + b| - 1] == last;
    }
  }

  /** A joined list is the join of the parts before k, part k, then the join of the rest:
      every part appears once, in list order. */
  lemma ConcatSplit(parts: seq<string>, k: nat)
    requires k < |parts|
    ensures Concat(parts) == Concat(parts[..k]) + parts[k] + Concat(parts[k + 1..])
  {
    var upto, rest := parts[..k + 1], parts[k + 1..];
    assert parts == upto + rest;
    ConcatAppend(upto, rest);
    assert upto[..k] == parts[..k];
    assert Concat(upto) == Concat(parts[..k]) + parts[k];
  }

  /** A string assembled around p contains p. */
  lemma OccursBetween(a: string, p: string, b: string, s: string)
    requires s == a + p + b
    ensures Occurs(p, s)
  {
    OccursInMiddle(a, p, b);
  }

  /** A heading followed by a joined list contains every part of the list. */
  lemma JoinedPartOccurs(head: string, parts: seq<string>, k: nat)
    requires k < |parts|
    ensures Occurs(parts[k], head + Concat(parts))
  {
    var before, after := Concat(parts[..k]), Concat(parts[k + 1..]);
    ConcatSplit(parts, k);
    var whole := head + Concat(parts);
    assert whole == (head + before) + parts[k] + after;
    OccursBetween(head + before, parts[k], after, whole);
  }

  /** `str(n)` for a natural number: its decimal digits, most significant first. */
  function NatToString(n: nat): (r: string)
    ensures |r| > 0
    ensures forall k :: 0 <= k < |r| ==> '0' <= r[k] <= '9'
    ensures n > 0 ==> r[0] != '0'
    decreases n
  {
    var d := [('0' as int + n % 10) as char];
    if n < 10 then d else NatToString(n / 10) + d
  }

  /** Reads decimal digits back as a number. */
  function DigitsValue(s: string): nat
    requires forall k :: 0 <= k < |s| ==> '0' <= s[k] <= '9'
    decreases |s|
  {
    if |s| == 0 then 0
    else 10 * DigitsValue(s[..|s| - 1]) + (s[|s| - 1] as int - '0' as int)
  }

  /** `int(str(n)) == n`. */
  lemma {:induction false} NatToStringRoundTrip(n: nat)
    ensures DigitsValue(NatToString(n)) == n
    decreases n
  {
    var d := [('0' as int + n % 10) as char];
    if n >= 10 {
      NatToStringRoundTrip(n / 10);
      var r := NatToString(n / 10) + d;
      assert r[..|r| - 1] == NatToString(n / 10);
    }
  }
}

=== FILE: video.dfy ===
/** Segment assembly of src/video.py: which segments become clips, from which visual source,
    for how long and with which framing, and the caption panel burned into each visual.
    The assets directory is a sparse map from segment index to the files found for it;
    loading media and rendering are left to the inputs that describe those files. */
module Video {
  import opened Common
  import opened Text
  import opened Model

  /** The output frame: 720 by 1280 pixels, portrait 9:16. */
  const TargetW := 720
  const TargetH := 1280

  // ---------------------------------------------------------------------------------------
  // Caption panel (`create_image_with_text`)

  datatype Point = Point(x: int, y: int)

  /** A rectangle by its left, top, right and bottom edges. */
  datatype Rect = Rect(left: int, top: int, right: int, bottom: int)

  /** The panel and the position at which each wrapped line is drawn. */
  datatype CaptionLayout = CaptionLayout(box: Rect, origins: seq<Point>)

  /** Pixels reserved per wrapped line. */
  const LineHeight := 50
  /** The panel's top edge, 300 + 20 pixels above the bottom of the frame. */
  const BoxTop := TargetH - 300 - 20
  /** Horizontal gap between the frame's edges and the panel. */
  const BoxMargin := 35
  /** Where each line starts horizontally. */
  const TextX := 60

  /** Line k's drawing band, `LineHeight` tall from its origin, lies inside the panel. */
  predicate BandInside(box: Rect, origin: Point)
  {
    box.left <= origin.x < box.right && box.top <= origin.y && origin.y + LineHeight <= box.bottom
  }

  /** The panel geometry for the wrapped lines of a caption: the box spans x from 35 to 685
      and y from 960 to 1000 + 50 per line; the lines start 10 pixels below the box's top,
      50 pixels apart, each inside the box. */
  method LayoutCaption(lines: seq<string>) returns (layout: CaptionLayout)
    ensures layout.box == Rect(BoxMargin, BoxTop, TargetW - BoxMargin, BoxTop + LineHeight * |lines| + 40)
    ensures |layout.origins| == |lines|
    ensures |lines| > 0 ==> layout.origins[0] == Point(TextX, layout.box.top + 10)
    ensures forall k :: 0 <= k < |lines| - 1 ==>
              layout.origins[k + 1] == Point(layout.origins[k].x, layout.origins[k].y + LineHeight)
    ensures forall k :: 0 <= k < |lines| ==> layout.origins[k] == Point(TextX, BoxTop + 10 + LineHeight * k)
    ensures forall k :: 0 <= k < |lines| ==> BandInside(layout.box, layout.origins[k])
  {
    var textHeight := |lines| * LineHeight;
    var box := Rect(BoxMargin, BoxTop, TargetW - BoxMargin, BoxTop + textHeight + 40);
    var origins: seq<Point> := [];
    var y := BoxTop + 10;
    var k := 0;
    while k < |lines|
      invariant 0 <= k <= |lines|
      invariant |origins| == k
      invariant y == BoxTop + 10 + LineHeight * k
      invariant forall j :: 0 <= j < k ==> origins[j] == Point(TextX, BoxTop + 10 + LineHeight * j)
    {
      origins := origins + [Point(TextX, y)];
      y := y + LineHeight;
      k := k + 1;
    }
    layout := CaptionLayout(box, origins);
  }

  /** The panel stays inside the 1280-pixel frame exactly when the caption wraps to at most
      five lines; longer captions run past the bottom edge. */
  lemma PanelFitsFrame(lineCount: nat)
    ensures BoxTop + LineHeight * lineCount + 40 <= TargetH <==> lineCount <= 5
  {
  }

  /** The saved image is flattened to RGB exactly when the lower-cased output path ends in
      ".jpg" or ".jpeg"; any other path (".png") keeps its alpha channel. */
  predicate FlattensToRgb(outputPath: string)
  {
    EndsWith(Lower(outputPath), ".jpg") || EndsWith(Lower(outputPath), ".jpeg")
  }

  /** Only the extension decides, whatever its letter case. */
  lemma FlattensToRgbBySuffix(path: string)
    ensures FlattensToRgb(path) <==>
              (|path| >= 4 && Lower(path[|path| - 4..]) == ".jpg")
              || (|path| >= 5 && Lower(path[|path| - 5..]) == ".jpeg")
  {
    if |path| >= 4 {
      assert Lower(path)[|path| - 4..] == Lower(path[|path| - 4..]);
    }
    if |path| >= 5 {
      assert Lower(path)[|path| - 5..] == Lower(path[|path| - 5..]);
    }
  }

  /** The last k characters of a + b, for k no longer than b, are b's last k. */
  lemma TailOfConcat(a: string, b: string, k: nat)
    requires k <= |b|
    ensures (a + b)[|a + b| - k..] == b[|b| - k..]
  {
    var t, u := (a + b)[|a + b| - k..], b[|b| - k..];
    assert forall m :: 0 <= m < k ==> t[m] == u[m];
  }

  /** The per-segment overlay `{i}_overlay.png` keeps its transparency. */
  lemma OverlayKeepsAlpha(i: nat)
    ensures !FlattensToRgb(NatToString(i) + "_overlay.png")
  {
    var overlay := NatToString(i) + "_overlay.png";
    var low := Lower(overlay);
    // the next-to-last character, 'n', tells ".png" from ".jpg" and ".jpeg"
    assert overlay[|overlay| - 2] == "_overlay.png"[10];
    assert low[|low| - 2] == 'n';
    assert low[|low| - 4..][2] != ".jpg"[2];
    assert low[|low| - 5..][3] != ".jpeg"[3];
  }

  /** The titled still `{i}_visual_titled.jpg` is flattened to RGB. */
  lemma TitledStillIsFlattened(i: nat)
    ensures FlattensToRgb(NatToString(i) + "_visual_titled.jpg")
  {
    var titled := NatToString(i) + "_visual_titled.jpg";
    var low := Lower(titled);
    TailOfConcat(NatToString(i), "_visual_titled.jpg", 4);
    var tail := titled[|titled| - 4..];
    assert tail == ".jpg";
    forall m | 0 <= m < 4
      ensures low[|low| - 4..][m] == ".jpg"[m]
    {
      assert low[|low| - 4 + m] == LowerChar(tail[m]);
    }
  }

  /** What `create_image_with_text` produced: nothing (it returns False on any exception), or
      a saved image with its caption layout and colour mode. */
  datatype CaptionResult = CaptionFailed | CaptionSaved(layout: CaptionLayout, rgb: bool)

  /** `create_image_with_text(image_path, text, output_path)`. `wrap` is the 30-column text
      wrapper; `rendered` says whether opening, drawing and saving went through. */
  method CreateImageWithText(text: string, outputPath: string, wrap: string -> seq<string>, rendered: bool)
    returns (r: CaptionResult)
    ensures r.CaptionSaved? <==> rendered
    ensures r.CaptionSaved? ==> (r.rgb <==> FlattensToRgb(outputPath))
    ensures r.CaptionSaved? ==> |r.layout.origins| == |wrap(text)|
    ensures r.CaptionSaved? ==>
              r.layout.box == Rect(BoxMargin, BoxTop, TargetW - BoxMargin, BoxTop + LineHeight * |wrap(text)| + 40)
    ensures r.CaptionSaved? ==>
              forall k :: 0 <= k < |wrap(text)| ==> r.layout.origins[k] == Point(TextX, BoxTop + 10 + LineHeight * k)
    ensures r.CaptionSaved? ==> forall k :: 0 <= k < |wrap(text)| ==> BandInside(r.layout.box, r.layout.origins[k])
  {
    if !rendered {
      return CaptionFailed;
    }
    var layout := LayoutCaption(wrap(text));
    r := CaptionSaved(layout, FlattensToRgb(outputPath));
  }

  // ---------------------------------------------------------------------------------------
  // Framing

  /** A frame dimension in pixels; media always has positive width and height. */
  type Dim = r: real | r > 0.0 witness 1.0

  datatype Frame = Frame(w: Dim, h: Dim)

  /** The output frame. */
  function Target(): Frame
  {
    Frame(TargetW as real, TargetH as real)
  }

  /** A horizontal crop from x1 to x2. */
  datatype Window = Window(x1: real, x2: real)

  /** `clip.resize(height=h)`: the width scales by the same factor. */
  function ResizeToHeight(f: Frame, h: Dim): (g: Frame)
    ensures g.h == h
    ensures g.w * f.h == f.w * h
  {
    Frame(f.w * h / f.h, h)
  }

  /** `crop(x1=w/2 - width/2, x2=w/2 + width/2)`. */
  function CentreCrop(w: real, width: real): (c: Window)
    ensures c.x2 - c.x1 == width
    ensures c.x1 + c.x2 == w
  {
    Window(w / 2.0 - width / 2.0, w / 2.0 + width / 2.0)
  }

  /** A framing step: the frame after resizing, the crop applied to it (if any), and the frame
      that results. */
  datatype Framing = Framing(resized: Frame, crop: Option<Window>, out: Frame)

  /** Scale a frame to height h, then crop any width beyond w to a centred window of width w.
      Resizing a frame that already has height h changes nothing, so the source's
      "resize if the height differs" and its unconditional resize agree. */
  function FitToHeight(f: Frame, w: Dim, h: Dim): (r: Framing)
    ensures r.resized.h == h && r.resized.w * f.h == f.w * h
    ensures r.out.h == h
    ensures r.out.w <= w
    ensures r.crop.Some? <==> r.resized.w > w
    ensures r.crop.Some? ==>
              && r.crop.value.x2 - r.crop.value.x1 == w
              && r.crop.value.x1 + r.crop.value.x2 == r.resized.w
              && 0.0 < r.crop.value.x1 && r.crop.value.x2 < r.resized.w
              && r.out.w == w
    ensures r.crop.None? ==> r.out == r.resized
  {
    var resized := if f.h != h then ResizeToHeight(f, h) else f;
    if resized.w > w then
      Framing(resized, Some(CentreCrop(resized.w, w)), Frame(w, resized.h))
    else
      Framing(resized, None, resized)
  }

  /** The first pass on stock footage: height forced to 1280, width cropped to 720 if wider. */
  function FitFootage(f: Frame): (r: Framing)
    ensures r.out.h == TargetH as real && r.out.w <= TargetW as real
    ensures r.crop.Some? ==> r.crop.value.x2 - r.crop.value.x1 == TargetW as real
                             && r.crop.value.x1 + r.crop.value.x2 == r.resized.w
                             && 0.0 <= r.crop.value.x1
  {
    FitToHeight(f, TargetW as real, TargetH as real)
  }

  /** A frame at least as wide as 9:16 relative to its height. */
  predicate AtLeastPortrait(f: Frame)
  {
    f.w * TargetH as real >= TargetW as real * f.h
  }

  /** For widths scaled by the factor h / f.h: at least 720 after scaling exactly when the
      frame is at least as wide as 9:16. */
  lemma ScaledWidthAtLeastTarget(f: Frame, w: real)
    requires w * f.h == f.w * TargetH as real
    ensures w >= TargetW as real <==> AtLeastPortrait(f)
  {
    ScaleCompare(w, f.h, f.w * TargetH as real, TargetW as real);
  }

  /** Multiplying both sides by a positive h keeps a comparison. */
  lemma ScaleCompare(w: real, h: real, x: real, c: real)
    requires h > 0.0 && w * h == x
    ensures w >= c <==> x >= c * h
  {
    if w >= c {
      assert (w - c) * h >= 0.0;
    } else {
      assert (c - w) * h > 0.0;
    }
  }

  /** The final safety pass: force the height to 1280, then crop any width other than 720 to
      a window of 720 centred on the frame. For a frame at least as wide as 9:16 the result
      is 720 by 1280. For a narrower one the window starts left of the frame; `out` then
      holds the requested 720 by 1280, which is not what MoviePy's crop yields, and no
      contract below speaks of it. */
  function SafetyPass(f: Frame): (r: Framing)
    ensures AtLeastPortrait(f) ==> r.out == Target()
    ensures r.resized.w >= TargetW as real <==> AtLeastPortrait(f)
    ensures r.resized.h == TargetH as real && r.resized.w * f.h == f.w * TargetH as real
    ensures r.crop.Some? <==> r.resized.w != TargetW as real
    ensures r.crop.Some? ==>
              r.crop.value.x2 - r.crop.value.x1 == TargetW as real && r.crop.value.x1 + r.crop.value.x2 == r.resized.w
    ensures f == Target() ==> r == Framing(f, None, f)
  {
    var resized := if f.h != TargetH as real then ResizeToHeight(f, TargetH as real) else f;
    ScaledWidthAtLeastTarget(f, resized.w);
    if resized.w != TargetW as real then
      Framing(resized, Some(CentreCrop(resized.w, TargetW as real)), Target())
    else
      Framing(resized, None, resized)
  }

  /** The safety crop stays within the resized frame exactly when that frame is at least 720
      wide: for a narrower one the window starts left of the frame (x1 < 0). */
  lemma SafetyCropWithinFrame(f: Frame)
    requires SafetyPass(f).crop.Some?
    ensures var r := SafetyPass(f);
            (0.0 <= r.crop.value.x1 && r.crop.value.x2 <= r.resized.w) <==> r.resized.w >= TargetW as real
  {
  }

  // ---------------------------------------------------------------------------------------
  // Per-segment assembly (`make_video`)

  /** `{i}_audio.mp3`: absent, present but unreadable, or readable with a duration. */
  datatype AudioFile = NoAudio | UnreadableAudio | Audio(duration: real)

  /** A loaded stock clip: its length in seconds and its frame. */
  datatype Footage = Footage(duration: real, frame: Frame)

  /** `{i}_visual.mp4`: its size in bytes, and the footage when loading it and its caption
      overlay goes through (None when either raises). */
  datatype Mp4 = Mp4(size: nat, footage: Option<Footage>)

  /** `{i}_visual.jpg`: its frame when it can be loaded, and whether burning the caption into
      `{i}_visual_titled.jpg` succeeded. */
  datatype Jpg = Jpg(frame: Option<Frame>, captionBurned: bool)

  /** Everything found in the assets directory for one segment index. */
  datatype SegmentFiles = SegmentFiles(audio: AudioFile, mp4: Option<Mp4>, jpg: Option<Jpg>)

  /** The files of segment i; an index with no entry has no files at all. */
  function FilesAt(dir: map<nat, SegmentFiles>, i: nat): SegmentFiles
  {
    if i in dir then dir[i] else SegmentFiles(NoAudio, None, None)
  }

  /** `has_video`: the MP4 exists and is not empty. */
  predicate HasVideo(files: SegmentFiles)
  {
    files.mp4.Some? && files.mp4.value.size > 0
  }

  /** Seconds of padding added after the narration. */
  const Padding := 0.5

  /** Where a clip's picture comes from: stock footage, looped when shorter than the clip and
      then cut to the span from `start` to `end` seconds, or a still image (with its caption
      burned in, or raw). */
  datatype Source = StockFootage(looped: bool, start: real, end: real) | Still(titled: bool)

  /** An assembled segment clip. */
  datatype Clip = Clip(index: nat, source: Source, duration: real, framing: seq<Framing>, frame: Frame)

  /** No step of segment i's assembly raises: its audio and footage load, and so does its still
      when there is no footage (with footage the still is never opened). */
  predicate Loadable(files: SegmentFiles)
  {
    && !files.audio.UnreadableAudio?
    && (HasVideo(files) ==> files.mp4.value.footage.Some?)
    && (!HasVideo(files) && files.jpg.Some? ==> files.jpg.value.frame.Some?)
  }

  /** One iteration of `make_video`'s loop: the clip segment i contributes, or None when it
      is skipped or its assembly raises. A caption can only be burned into a still that could
      be read, so a still marked `captionBurned` has a frame in practice; one without a frame
      is treated like any unreadable still and gives None. */
  function AssembleSegment(i: nat, files: SegmentFiles): (c: Option<Clip>)
    ensures files.audio.NoAudio? ==> c.None?
    ensures !HasVideo(files) && files.jpg.None? ==> c.None?
    ensures c.Some? ==> c.value.index == i
    ensures c.Some? ==> files.audio.Audio? && c.value.duration == files.audio.duration + Padding
    // video first
    ensures c.Some? && HasVideo(files) ==>
              && c.value.source.StockFootage? && files.mp4.value.footage.Some?
              && (c.value.source.looped <==> files.mp4.value.footage.value.duration < c.value.duration)
              && c.value.source.start == 0.0 && c.value.source.end == c.value.duration
              && |c.value.framing| == 2 && c.value.framing[0] == FitFootage(files.mp4.value.footage.value.frame)
    // then the image, titled when the caption was burned in
    ensures c.Some? && !HasVideo(files) ==>
              && files.jpg.Some? && c.value.source.Still?
              && (c.value.source.titled <==> files.jpg.value.captionBurned)
              && files.jpg.value.frame.Some?
              && c.value.framing == [SafetyPass(if c.value.source.titled then Target() else files.jpg.value.frame.value)]
    // every clip ends 720 by 1280, except a raw still narrower than 9:16, whose safety crop
    // sticks out of the frame
    ensures c.Some? && HasVideo(files) ==> c.value.frame == Target()
    ensures c.Some? && !HasVideo(files) && (c.value.source.titled || AtLeastPortrait(files.jpg.value.frame.value)) ==>
              c.value.frame == Target()
    // a segment with audio and a visual is assembled unless a load raises
    ensures Loadable(files) ==> (c.Some? <==> files.audio.Audio? && (HasVideo(files) || files.jpg.Some?))
  {
    match files.audio
    case NoAudio => None
    case UnreadableAudio => None
    case Audio(d) =>
      var duration := d + Padding;
      if HasVideo(files) then
        match files.mp4.value.footage
        case None => None
        case Some(v) =>
          var first := FitFootage(v.frame);
          // the caption overlay is composited at the target size, so the safety pass is idle
          var safety := SafetyPass(Target());
          Some(Clip(i, StockFootage(v.duration < duration, 0.0, duration), duration, [first, safety], safety.out))
      else if files.jpg.Some? then
        var jpg := files.jpg.value;
        match jpg.frame
        case None => None
        case Some(raw) =>
          var titled := jpg.captionBurned;
          // the titled copy was resized to the target by `create_image_with_text`
          var picture := if titled then Target() else raw;
          var safety := SafetyPass(picture);
          Some(Clip(i, Still(titled), duration, [safety], safety.out))
      else
        None
  }

  /** `make_video(script_data, assets_dir, output_file)`: the clips in assembly order and
      the boolean it returns; `rendered` says whether concatenating and writing went through. */
  method MakeVideo(segments: seq<Segment>, dir: map<nat, SegmentFiles>, rendered: bool)
    returns (clips: seq<Clip>, ok: bool)
    ensures |clips| <= |segments|
    ensures forall k :: 0 <= k < |clips| ==> clips[k].index < |segments|
    ensures forall j, k :: 0 <= j < k < |clips| ==> clips[j].index < clips[k].index
    ensures forall k :: 0 <= k < |clips| ==> Some(clips[k]) == AssembleSegment(clips[k].index, FilesAt(dir, clips[k].index))
    ensures forall i :: 0 <= i < |segments| && AssembleSegment(i, FilesAt(dir, i)).Some? ==>
              exists k :: 0 <= k < |clips| && clips[k].index == i
    ensures ok <==> |clips| > 0 && rendered
  {
    clips := [];
    var i := 0;
    while i < |segments|
      invariant 0 <= i <= |segments|
      invariant |clips| <= i
      invariant forall k :: 0 <= k < |clips| ==> clips[k].index < i
      invariant forall j, k :: 0 <= j < k < |clips| ==> clips[j].index < clips[k].index
      invariant forall k :: 0 <= k < |clips| ==> Some(clips[k]) == AssembleSegment(clips[k].index, FilesAt(dir, clips[k].index))
      invariant forall n :: 0 <= n < i && AssembleSegment(n, FilesAt(dir, n)).Some? ==>
                  exists k :: 0 <= k < |clips| && clips[k].index == n
    {
      var c := AssembleSegment(i, FilesAt(dir, i));
      if c.Some? {
        ghost var before := clips;
        clips := clips + [c.value];
        assert clips[|clips| - 1].index == i;
        assert forall k :: 0 <= k < |before| ==> clips[k] == before[k];
      }
      i := i + 1;
    }
    ok := |clips| > 0 && rendered;
  }
}
